=== FILE: README.md ===
# Extension pack assembly, scaffold market and doc-info cache, in Dafny

This project models three pieces of pure logic from the Iceworks/AppWorks repository as
pure Dafny functions and proves properties about them.

1. **The extension-pack script** (`scripts/o2/general-pack.ts`). It folds many VS Code
   extensions into one "pack" extension. The model covers:
   - which local extensions are published (`Publisher`);
   - the registry name of an extension (`PackModel`);
   - the digit-concatenation version bump (`Version`);
   - the fold of the extension manifests into the pack manifest: commands, `iceworksApp`
     views, activation events, dependencies and `kaitianContributes` (`ManifestMerger`);
   - the collection and merge of the `package.nls*` localization files (`Locale`);
   - the replacement of asset folders and of the `build` folder (`Assets`);
   - the `.ejs` template renaming and the entry-symbol names (`PackSource`);
   - the removal of the `extensionPack` marker (`PackSource.Customize`);
   - how the stages fit together (`Pipeline`).
2. **The scaffold market** of the project creator
   (`extensions/project-creator/web/src/pages/CreateProject/components/ScaffoldMarket/index.tsx`).
   The model covers the main/"more" split of a source's scaffolds with its blacklist and
   promotion rule, `checkIsWireless`, the source icon, the ts/js badge and the card title
   (`ScaffoldMarket`).
3. **The component doc-info cache** of the material helper
   (`extensions/material-helper/src/componentDocSupport/docInfoCache.ts`). The model covers
   the loading → ready state pair, the mapping of components and bases to doc entries, and
   the concatenation over sources (`DocInfoCache`).

The library behaviour the script relies on is modelled in shared modules:
- `Seqs`: `Array.prototype.filter`, a `reduce` of `concat`, and lodash `unionBy`, which keeps
  the first element per key in first-seen order.
- `Strs`: `String(n)`, `parseInt` on digit strings, lodash `padStart`, `indexOf`,
  `replace` with a string pattern, and ASCII `toLocaleLowerCase`.
- `Wrappers`: `Option` and `Result`.

File system, processes, the registry, the template engine and `camelCase` are not modelled.
What they read becomes an input of the model. What they write becomes its result. Where
an order is needed (for example, which manifest is folded first), the model takes it as an
explicit sequence.

Three consequences of the code are worth stating plainly:
- **Version bump.** The bump concatenates the components, adds one, pads to three digits
  and dots every digit. So `9.9.9` becomes the four-component `1.0.0.0`
  (`Version.NextVersionOverflows`). What holds for every version is that the concatenated
  value grows by exactly one (`Version.NextVersion`).
- **Dependency values.** The dependency value is the extension's `version` in every pack
  that is not beta, and `*` in every beta pack (line 187). Whether the extension was
  published in this run or fetched as an "other" extension plays no part
  (`ManifestMerger.DependencyValue`).
- **Hidden templates.** The files of the extension pack's `src` directory are listed
  with `**` and without the `dot` option (lines 239-242). A path with a segment that
  starts with `.`, such as `src/.env.ejs`, is therefore never listed, never rendered and
  never removed: it stays as it was (`PackSource.RenderSource`).

lodash `merge` merges arrays index by index. The fold in lines 174-192 nevertheless
yields each `unionBy` result unchanged. The accumulated list is duplicate-free, and it is
a prefix of the new union (`Seqs.UnionKeepsUniquePrefix`, used by
`ManifestMerger.FoldOne`), so the index-wise merge writes each element over itself.

## Model

| member | source | states |
|---|---|---|
| Seqs.Filter | scripts/o2/general-pack.ts:195-197 | every kept element comes from the input and satisfies the predicate; every satisfying input element is kept; never longer than the input |
| Seqs.FilterAppend | scripts/o2/general-pack.ts:195-197 | filtering distributes over concatenation, so kept elements stay in input order |
| Seqs.FilterPartition | extensions/project-creator/web/src/pages/CreateProject/components/ScaffoldMarket/index.tsx:67-82 | filtering by a predicate and by its negation splits the input exactly, as a multiset |
| Seqs.Flatten | extensions/material-helper/src/componentDocSupport/docInfoCache.ts:41-43 | the `reduce` of `concat` is as long as all parts together |
| Seqs.FlattenIndex | extensions/material-helper/src/componentDocSupport/docInfoCache.ts:41-43 | element i of part k lands right after all elements of the earlier parts |
| Seqs.FlattenMember | scripts/o2/general-pack.ts:111-114 | anything in the concatenation occurs in one of the parts |
| Seqs.FlattenAppend | extensions/material-helper/src/componentDocSupport/docInfoCache.ts:41-43 | concatenating two runs of parts concatenates their results |
| Seqs.UnionBy | scripts/o2/general-pack.ts:115 | lodash `unionBy`: no two results share a key, the keys are exactly the input's keys, and it is never longer than its input |
| Seqs.UnionKeepsFirst | scripts/o2/general-pack.ts:182-186 | each kept element is the first input element carrying its key |
| Seqs.UnionFirstSeenOrder | scripts/o2/general-pack.ts:182-186 | kept elements are ordered by the position of their key's first occurrence |
| Seqs.UnionOfUnique | scripts/o2/general-pack.ts:182-186 | a list whose keys are already distinct comes back unchanged |
| Seqs.UnionIdempotent | scripts/o2/general-pack.ts:182-186 | a second union changes nothing |
| Seqs.UnionCongruence | scripts/o2/general-pack.ts:182-186 | two lists with the same union keep the same union after the same list is appended |
| Seqs.UnionAssociates | scripts/o2/general-pack.ts:182-186 | uniting step by step equals one union of everything in fold order |
| Seqs.UnionAbsorbs | scripts/o2/general-pack.ts:182-186 | appending elements whose keys are all known leaves a duplicate-free list unchanged |
| Seqs.UnionFoldTwice | scripts/o2/general-pack.ts:182-186 | folding the same contribution twice equals folding it once |
| Seqs.UnionKeepsUniquePrefix | scripts/o2/general-pack.ts:174-186 | a duplicate-free accumulator is a prefix of the union with new elements, so lodash's index-wise array merge yields that union |
| Seqs.UnionPrefix | scripts/o2/general-pack.ts:182-186 | the union of a prefix is a prefix of the union of the whole |
| Strs.ParseDigitsConcat | scripts/o2/general-pack.ts:69 | reading `a + b` as a numeral reads `a` shifted by the length of `b`, plus `b` |
| Strs.ParseDigits | scripts/o2/general-pack.ts:69 | `parseInt` of an n-digit numeral is below 10^n |
| Strs.DecimalString | scripts/o2/general-pack.ts:69 | `String(n)`: a digit string that reads back as `n` and has no leading zero |
| Strs.PadStart | scripts/o2/general-pack.ts:69 | `padStart(s, 3, '0')`: length is the larger of width and `|s|`, `s` is the suffix, the rest is padding |
| Strs.ZeroPadKeepsValue | scripts/o2/general-pack.ts:69 | zero-padding a numeral does not change the number it reads as |
| Strs.IndexOf | scripts/o2/general-pack.ts:196 | `indexOf`: the first occurrence, or -1 exactly when there is none |
| Strs.IndexOfZeroIsPrefix | scripts/o2/general-pack.ts:196 | `indexOf(p) === 0` holds exactly when the string starts with `p` |
| Strs.ReplaceFirst | extensions/project-creator/web/src/pages/CreateProject/components/ScaffoldMarket/index.tsx:202 | `replace` with a string pattern: without an occurrence the string is unchanged; otherwise exactly the first occurrence is swapped for the replacement and the text before and after it stays |
| Strs.RemoveTrailingMarker | extensions/project-creator/web/src/pages/CreateProject/components/ScaffoldMarket/index.tsx:202 | replacing the first occurrence of a marker that occurs only at the end deletes exactly that marker |
| Strs.Lower | extensions/project-creator/web/src/pages/CreateProject/components/ScaffoldMarket/index.tsx:138-140 | `toLocaleLowerCase` keeps the length and lower-cases each character on its own |
| Version.JoinComponents | scripts/o2/general-pack.ts:69 | `split('.').join('')` of a digits-and-dots version is an all-digit string |
| Version.Dotted | scripts/o2/general-pack.ts:69 | `split('').join('.')`: 2n-1 characters for n ≥ 1, the input characters in order at even positions, dots at odd positions |
| Version.DottedShape | scripts/o2/general-pack.ts:69 | `split('').join('.')` of an n-digit numeral has 2n-1 characters: a digit, then alternately a dot and a digit |
| Version.DottedRoundTrip | scripts/o2/general-pack.ts:69 | removing the dots from a dotted numeral gives the numeral back |
| Version.NextVersion | scripts/o2/general-pack.ts:69 | the next version has one digit per component; its concatenated value is the old one plus one; it has three components unless the incremented number needs more |
| Version.NextVersionBumpable | scripts/o2/general-pack.ts:63-69 | a bumped version can be bumped again: it has all-digit components |
| Version.ThreeComponents | scripts/o2/general-pack.ts:69 | a three-component single-digit version reads as its three digits as one number |
| Version.NextVersionCarry | scripts/o2/general-pack.ts:69 | `1.2.9` is followed by `1.3.0` |
| Version.NextVersionPads | scripts/o2/general-pack.ts:69 | `0.0.9` is followed by `0.1.0` |
| Version.DecimalThousand | scripts/o2/general-pack.ts:69 | `String(999 + 1)` is `1000` |
| Version.DottedThousand | scripts/o2/general-pack.ts:69 | dotting `1000` gives `1.0.0.0` |
| Version.NextVersionOverflows | scripts/o2/general-pack.ts:69 | `9.9.9` is followed by the four-component `1.0.0.0` |
| PackModel.NpmName | scripts/o2/general-pack.ts:39-41 | the registry name is the prefix of the release channel (line 19), a dash, and the extension name unchanged |
| PackModel.NpmNameInjective | scripts/o2/general-pack.ts:39-41 | distinct names, or distinct channels, never share a registry name |
| Publisher.FindAllowed | scripts/o2/general-pack.ts:58 | `find`: none exactly when no allow-list entry has the key; otherwise the first entry with it |
| Publisher.RecordOf | scripts/o2/general-pack.ts:84-88 | a published record is its allow-list entry with the directory name and the registry name filled in |
| Publisher.Selected | scripts/o2/general-pack.ts:58-59 | only allow-listed local extensions are selected |
| Publisher.SelectPublishableComplete | scripts/o2/general-pack.ts:58-59 | every allow-listed local extension has its record among the results |
| Publisher.SelectPublishableSound | scripts/o2/general-pack.ts:84-88 | every result is the record of an allow-listed local extension |
| Publisher.SelectAppend | scripts/o2/general-pack.ts:52-53 | selection distributes over the scan order |
| Publisher.SelectPublishable | scripts/o2/general-pack.ts:49-93 | the returned records are never more than the local extensions |
| Publisher.BaseVersion | scripts/o2/general-pack.ts:63-68 | the bump starts from the registry's latest version of the registry name, or from the local version when the lookup fails |
| Publisher.MergePublishConfig | scripts/o2/general-pack.ts:23-33 | `merge` into `publishConfig` keeps every existing key and its value unless the channel sets it; a stable channel sets `access` to `public`, a beta channel sets `registry` to the configured registry |
| Publisher.RewriteForPublish | scripts/o2/general-pack.ts:63-75 | the rewritten manifest carries the registry name and the bump of the base version, whose concatenated value is the base's plus one; `publishConfig` keeps its existing entries and gains the channel's; every other field is unchanged |
| Publisher.AfterPublish | scripts/o2/general-pack.ts:59-82 | an allow-listed extension, when publishing is on, gets exactly the publishing rewrite of its manifest (rename, version bump, channel `publishConfig`); any other extension keeps its manifest on disk; the directory name never changes |
| Publisher.Publish | scripts/o2/general-pack.ts:49-93 | the records do not depend on the publish flag; every extension's manifest afterwards is the one the per-extension step leaves behind; when not publishing, nothing is written or published; when publishing, `npm publish` runs once per record, in record order |
| Publisher.PublishRewrites | scripts/o2/general-pack.ts:59-75 | a manifest is replaced by its publishing rewrite (renamed, version bumped past its base) exactly when publishing is on and the extension is allow-listed; otherwise the extension is unchanged |
| ManifestMerger.FoldEvents | scripts/o2/general-pack.ts:186 | the accumulated activation events are duplicate-free and hold exactly the earlier events and the declared ones |
| ManifestMerger.DependencyKey | scripts/o2/general-pack.ts:187 | without publishing the dependency is keyed by the registry name of the local name; with publishing, by the name read back, which already is the registry name |
| ManifestMerger.DependencyValue | scripts/o2/general-pack.ts:187 | the dependency value is the version in a stable pack and `*` in a beta pack, whatever the publish flag |
| ManifestMerger.FoldEventsAsWritten | scripts/o2/general-pack.ts:186 | as written, the event union stays duplicate-free but ranges over events and `undefined` |
| ManifestMerger.MissingEventsLeakUndefined | scripts/o2/general-pack.ts:186 | as written, a manifest without `activationEvents` puts `undefined` into the extension pack's events |
| ManifestMerger.FoldOne | scripts/o2/general-pack.ts:159-192 | one fold step: keeps the invariant (no duplicate command ids, view ids or events, no entry override); the key sets become unions; earlier entries stay as a prefix; the dependency key and value follow the publish and beta flags; other dependencies are kept; `kaitianContributes` is a shallow merge without the three overrides |
| ManifestMerger.FoldAll | scripts/o2/general-pack.ts:154-192 | folding every manifest preserves the invariant |
| ManifestMerger.FoldOneIdempotent | scripts/o2/general-pack.ts:174-192 | folding the same manifest twice equals folding it once |
| ManifestMerger.FoldAllIsOneUnion | scripts/o2/general-pack.ts:182-186 | the folded commands, views and events are one `unionBy` over all contributions in fold order |
| ManifestMerger.FoldAllCommandsFirstWins | scripts/o2/general-pack.ts:184 | the merged commands have distinct ids, each is the first contribution with its id, in first-seen order, and every contributed id is present |
| ManifestMerger.FoldAllViewsFirstWins | scripts/o2/general-pack.ts:182 | the merged `iceworksApp` views have exactly the contributed ids; each is the first contribution with its id; they are in first-seen order |
| ManifestMerger.FoldAllEventsDistinct | scripts/o2/general-pack.ts:186 | the merged activation events are each declared event exactly once, in first-seen order |
| ManifestMerger.FoldAllDependencyNames | scripts/o2/general-pack.ts:187 | the dependency names are exactly the folded extensions' names, prefixed unless publishing |
| ManifestMerger.FoldAllDependencyLastWins | scripts/o2/general-pack.ts:187 | the last extension folded under a dependency name decides its value |
| ManifestMerger.FoldAllBetaIsWildcard | scripts/o2/general-pack.ts:187 | in a beta pack every dependency is `*` |
| ManifestMerger.FoldAllDropsEntryOverrides | scripts/o2/general-pack.ts:168-170 | `nodeMain`, `browserMain` and `workerMain` never reach the merged `kaitianContributes` |
| Locale.NlsFiles | scripts/o2/general-pack.ts:195-197 | exactly the directory entries whose name starts with `package.nls` are collected |
| Locale.MergeTable | scripts/o2/general-pack.ts:100-106 | a file that cannot be read counts as empty; incoming keys win; all other existing keys stay |
| Locale.MergeNlsFiles | scripts/o2/general-pack.ts:96-109 | the files written are the existing ones plus every contributed file name |
| Locale.MergeNlsUntouched | scripts/o2/general-pack.ts:96-109 | a file nobody contributes to is left as it was |
| Locale.MergeNlsKeepsKeys | scripts/o2/general-pack.ts:96-109 | a file of the result holds exactly the keys it had on disk plus the keys any contribution to it carries: none is lost and none is invented |
| Locale.MergeNlsKeepsValue | scripts/o2/general-pack.ts:96-109 | a key on disk that no contribution to its file carries keeps its value from disk |
| Locale.MergeNlsLastWins | scripts/o2/general-pack.ts:96-109 | the last contribution to a file carrying a key decides that key's value |
| Locale.MergeNlsExample | scripts/o2/general-pack.ts:100-106 | `{a: 1}` then `{a: 2, b: 3}` into a missing file gives `{a: 2, b: 3}` |
| Assets.AllAssetsFolders | scripts/o2/general-pack.ts:111-115 | the folders to clear hold no duplicates and are exactly the declared folders |
| Assets.AllAssetsFoldersMembers | scripts/o2/general-pack.ts:111-115 | a folder is cleared exactly when some extension declares it |
| Assets.RemoveFolders | scripts/o2/general-pack.ts:116-118 | removal drops exactly the listed folders and leaves the rest as they were |
| Assets.CopyFolder | scripts/o2/general-pack.ts:129-131 | an overwriting copy writes every source file and keeps the destination's other files |
| Assets.ApplyCopiesAt | scripts/o2/general-pack.ts:120-133 | after the copies, each folder is its old content overlaid with what the copies gather for it |
| Assets.GatheredLastWins | scripts/o2/general-pack.ts:120-133 | the last copy into a folder that holds a file decides that file |
| Assets.GatheredFrom | scripts/o2/general-pack.ts:120-133 | a gathered file comes from a copy into that folder whose source holds it |
| Assets.GatheredNone | scripts/o2/general-pack.ts:120-133 | a folder no copy targets gathers nothing |
| Assets.JobsOf | scripts/o2/general-pack.ts:121-127 | one copy per declared folder, read from the fetched or the local directory according to `isOther` |
| Assets.CopyJobs | scripts/o2/general-pack.ts:120-133 | the copies target the declared folders one for one, in declaration order |
| Assets.CopyJobsAppend | scripts/o2/general-pack.ts:120-127 | the copies of a list of extensions are those of all but the last followed by the last one's own copies, so each copy reads the directory of the extension that declared its folder |
| Assets.CopyAssetsFolder | scripts/o2/general-pack.ts:110-134 | undeclared folders are untouched; each declared folder holds exactly what the extensions' sources provide, with no stale file |
| Assets.CopyAssets | scripts/o2/general-pack.ts:110-134 | only folders that existed or are declared exist afterwards, and an undeclared folder keeps its content |
| Assets.BuildJobs | scripts/o2/general-pack.ts:139-149 | only the repository's own extensions, never fetched ones, contribute to `build`, and every own extension does |
| Assets.BuildJobsAppend | scripts/o2/general-pack.ts:139-149 | the `build` copies follow extension order, so with `Assets.GatheredLastWins` the last own extension carrying a file decides it |
| Assets.BuildJobsSingleton | scripts/o2/general-pack.ts:139-149 | one extension gives a `build` copy from its own directory when it is the repository's own, and none when it was fetched |
| Assets.CopyWebviewFolder | scripts/o2/general-pack.ts:135-150 | `build` holds exactly what the own extensions' `build` folders provide; every other folder is untouched |
| Assets.CopyWebview | scripts/o2/general-pack.ts:135-150 | every folder other than `build` exists afterwards exactly when it existed before, with the same content |
| PackSource.EntryOf | scripts/o2/general-pack.ts:243-253 | a template record carries the package's name and flags, and the symbols `…Active`, `…Deactivate`, `…NodeActive` and `…NodeDeactivate` after the package's identifier, which are pairwise distinct |
| PackSource.Entries | scripts/o2/general-pack.ts:243-254 | one record per extension, in order |
| PackSource.ActivateClash | scripts/o2/general-pack.ts:249 | two packages share an activation symbol exactly when their identifiers agree |
| PackSource.ActivateMeetsNodeActivate | scripts/o2/general-pack.ts:249-251 | one package's activation symbol is another's node activation symbol exactly when its identifier is the other's followed by `Node` |
| PackSource.Basename | scripts/o2/general-pack.ts:257 | `basename` for paths not ending in `/`: the longest suffix without `/` |
| PackSource.IsTemplateOfPath | scripts/o2/general-pack.ts:257-259 | testing the base name for `.ejs` is testing the whole path |
| PackSource.RenderedPath | scripts/o2/general-pack.ts:260 | the rendered file's path plus `.ejs` is the template's path |
| PackSource.RenderedPathInjective | scripts/o2/general-pack.ts:260 | different templates render to different paths |
| PackSource.RenderSource | scripts/o2/general-pack.ts:239-265 | every listed template's rendering sits at its name without `.ejs`; a template under a segment starting with `.` is not listed and stays as it is; other files are kept unless rendered over; nothing else appears and the listed templates are gone |
| PackSource.HiddenExtends | scripts/o2/general-pack.ts:239-242 | appending to a path never makes a hidden segment visible, so no listed template renders over a file under a hidden segment |
| PackSource.RenderWithoutTemplates | scripts/o2/general-pack.ts:239-265 | a source tree without listed templates is left exactly as it is |
| PackSource.Customize | scripts/o2/general-pack.ts:219-224 | `extensionPack` is absent; the template's values win; the extension pack's other values stay |
| PackSource.CustomizeIdempotent | scripts/o2/general-pack.ts:219-224 | applying the customisation again changes nothing |
| Pipeline.AllExtensions | scripts/o2/general-pack.ts:283 | the extension pack's extensions are the published records followed by the fetched ones |
| Pipeline.DependencyOnPublished | scripts/o2/general-pack.ts:187 | a published extension is a dependency under its registry name whichever flags are set; a stable, publishing run depends on exactly the version just published |
| Pipeline.RecordNameIsDependencyKey | scripts/o2/general-pack.ts:84-88 | the registry name in a published record is the name its dependency is keyed by |
| ScaffoldMarket.MainOf | extensions/project-creator/web/src/pages/CreateProject/components/ScaffoldMarket/index.tsx:67-74 | the main list is exactly the input scaffolds in the main list that are not blacklisted |
| ScaffoldMarket.OtherOf | extensions/project-creator/web/src/pages/CreateProject/components/ScaffoldMarket/index.tsx:75-82 | the "more" list is exactly the input scaffolds outside the main list that are not blacklisted |
| ScaffoldMarket.SplitKeepsOrder | extensions/project-creator/web/src/pages/CreateProject/components/ScaffoldMarket/index.tsx:67-82 | both lists keep input order |
| ScaffoldMarket.SplitIsPartition | extensions/project-creator/web/src/pages/CreateProject/components/ScaffoldMarket/index.tsx:69-80 | outside the company network the two lists split the input exactly and share no scaffold |
| ScaffoldMarket.BlacklistedNowhere | extensions/project-creator/web/src/pages/CreateProject/components/ScaffoldMarket/index.tsx:70-72 | inside the network a blacklisted scaffold is in neither list |
| ScaffoldMarket.GetScaffolds | extensions/project-creator/web/src/pages/CreateProject/components/ScaffoldMarket/index.tsx:64-92 | a failed service call yields two empty lists; an empty main list never sits next to a non-empty "more" list; the "more" list is promoted exactly when the main list is empty |
| ScaffoldMarket.GetScaffoldsShowsAllowed | extensions/project-creator/web/src/pages/CreateProject/components/ScaffoldMarket/index.tsx:64-87 | after promotion the market shows exactly the input scaffolds that are not blacklisted |
| ScaffoldMarket.IconName | extensions/project-creator/web/src/pages/CreateProject/components/ScaffoldMarket/index.tsx:137-143 | the icon is the lower-cased client when there is one; otherwise the lower-cased type when it is `react`, `rax` or `vue`; otherwise `app` |
| ScaffoldMarket.IconNameIsLower | extensions/project-creator/web/src/pages/CreateProject/components/ScaffoldMarket/index.tsx:137-143 | every icon name is already lower case |
| ScaffoldMarket.WirelessIcons | extensions/project-creator/web/src/pages/CreateProject/components/ScaffoldMarket/index.tsx:20-22 | a `rax` source without a client, and a `wireless` client, are wireless and get the icon of that name |
| ScaffoldMarket.IsWireless | extensions/project-creator/web/src/pages/CreateProject/components/ScaffoldMarket/index.tsx:20-22 | a source is wireless exactly when its client is `wireless` or its type is `rax` or `miniProgram`: a `rax` or `miniProgram` type is wireless whatever the client; without a client only the type decides; for any other type only a client of exactly `wireless` does |
| ScaffoldMarket.WirelessIconAgreement | extensions/project-creator/web/src/pages/CreateProject/components/ScaffoldMarket/index.tsx:20-22 | without a client a wireless source shows the `rax` or `app` icon and a `react` or `vue` icon means not wireless; a client `Wireless` gets the `wireless` icon yet is not wireless, since only the icon lower-cases |
| ScaffoldMarket.ScaffoldType | extensions/project-creator/web/src/pages/CreateProject/components/ScaffoldMarket/index.tsx:181-185 | the badge is `ts` exactly for the ts list, `js` exactly for the js list minus the ts list, and none otherwise |
| ScaffoldMarket.DisplayTitle | extensions/project-creator/web/src/pages/CreateProject/components/ScaffoldMarket/index.tsx:202 | without a badge the title is shown as is; with one, a title without markers is unchanged; it never grows |
| ScaffoldMarket.DisplayTitleStripsMarker | extensions/project-creator/web/src/pages/CreateProject/components/ScaffoldMarket/index.tsx:249 | a badged title ending in ` - TS` or ` - JS`, with no marker before it, loses exactly that marker in either panel |
| DocInfoCache.GetDocInfos | extensions/material-helper/src/componentDocSupport/docInfoCache.ts:13-20 | while loading, the answer is empty and a notice is shown; once ready, the answer is the cache and no notice is shown |
| DocInfoCache.ToDocInfo | extensions/material-helper/src/componentDocSupport/docInfoCache.ts:30-35 | label, detail and url are the item's name, title and homepage; the description is the item's or `''` |
| DocInfoCache.FromMaterial | extensions/material-helper/src/componentDocSupport/docInfoCache.ts:28-37 | a source yields its components' entries followed by its bases' entries; missing bases count as none |
| DocInfoCache.PerSource | extensions/material-helper/src/componentDocSupport/docInfoCache.ts:40-42 | one entry list per source, in source order |
| DocInfoCache.OriginGetDocInfos | extensions/material-helper/src/componentDocSupport/docInfoCache.ts:27-44 | every entry of every source is offered, and nothing else is |
| DocInfoCache.PerSourceLengths | extensions/material-helper/src/componentDocSupport/docInfoCache.ts:41-43 | the per-source lists hold as many entries as all sources' components and bases |
| DocInfoCache.OriginLength | extensions/material-helper/src/componentDocSupport/docInfoCache.ts:41-43 | the result holds as many entries as all sources' components and bases together |
| DocInfoCache.OriginAppend | extensions/material-helper/src/componentDocSupport/docInfoCache.ts:41-43 | sources contribute in source order |
| DocInfoCache.OriginEntryAt | extensions/material-helper/src/componentDocSupport/docInfoCache.ts:41-43 | component i of source k sits right after the entries of the earlier sources, and its bases follow its components |
| DocInfoCache.InitDocInfos | extensions/material-helper/src/componentDocSupport/docInfoCache.ts:22-25 | after a successful fetch the cache is ready and answers with exactly the sources' entries; when the fetch rejects, the cache is left as it was |
| DocInfoCache.CacheLifecycle | extensions/material-helper/src/componentDocSupport/docInfoCache.ts:8-25 | before initialisation the accessor answers with nothing and the notice; after a successful one, with exactly the sources' entries |
| DocInfoCache.FailedInitStaysLoading | extensions/material-helper/src/componentDocSupport/docInfoCache.ts:22-25 | a rejected fetch changes no answer: from the start, the accessor keeps answering with nothing and the notice |
| DocInfoCache.InitReplaces | extensions/material-helper/src/componentDocSupport/docInfoCache.ts:22-25 | a later successful initialisation replaces the cache whatever came before; a rejected one after a success keeps it |

## Left out

- File system, processes and network. `readJson`/`writeJson`, `copy`, `remove`, `readdir`, `glob`, the `execa` publish, `getLatestVersion`, `packageJSON` and `getAndExtractTarball` are not modelled. Registry answers and directory contents are inputs; written files and published directories are outputs.
- Template rendering. The EJS engine is a function parameter of `PackSource.RenderSource`, because the templates are not part of this model.
- `camelCase`. It is a function parameter of `PackSource.EntryOf`, because lodash's identifier rules are library internals.
- Concurrency. `Promise.all` completion order decides the real order of published records, folded manifests and collected localization files. The model takes scan order.
- PackSource.RenderSource: templates are rendered concurrently. When `a.ejs` and `a.ejs.ejs` both exist, the source races between rendering into `a.ejs` and removing it. The model keeps the rendering.
- Deep merge. lodash `merge` is modelled for flat string maps only. The model leaves out:
  - the merge of other `contributes` keys (line 179);
  - nested localization tables;
  - the `scripts` and `files` entries that the publisher also merges into a manifest (lines 23-37);
  - the final `mergePackageJSON2Pack` of the folded manifest into the extension pack's `package.json` (lines 43-47).
- Version.NextVersion: `parseInt` and `+ 1` work on doubles, so concatenated values beyond 2^53 round. The model computes on unbounded integers. It also requires all-digit components with at least one digit, where `parseInt` would otherwise give `NaN` or stop at the first non-digit.
- Publisher.SelectPublishable: its own contract only bounds the length. Completeness and soundness are stated by `Publisher.SelectPublishableComplete` and `Publisher.SelectPublishableSound`, to keep each proof small.
- Assets: a directory is modelled one level deep (folder → files). Asset folders nested inside one another, such as `assets` and `assets/img`, are not modelled. `remove` and `copy` errors are also left out.
- Strs.Lower: `toLocaleLowerCase` is modelled for ASCII letters only.
- ScaffoldMarket: the scaffold lists of the project creator's `constants` module are not part of this model. They are a `Catalog` parameter.
- ScaffoldMarket: also left out are the React state and effects, `initData`'s choice of the initially selected source and scaffold (lines 94-117), the card rendering, and `Notification`.
- ScaffoldMarket.IconName: requires a project type. Line 138 lower-cases `item.type` before line 139 tests `item.client`, so a source without a type throws there even when it has a client; that throw is not modelled.
- DocInfoCache: the "still loading" notice is a flag in the answer; its text and the editor API are not modelled. `getSourcesByProjectType` and `getData` are replaced by their outcome: the fetched data, or a failure when any of them rejects.
- PackSource.Basename: Node's `basename` drops one trailing `/` (`a/b/` gives `b`); the model gives `""` there. `glob` runs with `nodir` (lines 239-241), so no such path reaches line 257.
- The fetch of "other" extensions (`getOtherExtensionsSource`, lines 268-278) does network and file work only, so it is not modelled.

## Findings

| source | as written | input that shows it | evidently intended | confidence | as-written member | corrected member |
|---|---|---|---|---|---|---|
| scripts/o2/general-pack.ts:186 | `unionBy(manifests.activationEvents.concat(activationEvents))` with `activationEvents` read without a default (line 161) | an included extension whose `package.json` has no `activationEvents`: `concat(undefined)` appends `undefined`, which `writeJson` writes as `null` into the extension pack's `activationEvents` | a missing list counts as no events, as the code does for `commands`, `iceworksApp` and `kaitianContributes` | not executed | ManifestMerger.FoldEventsAsWritten | ManifestMerger.FoldEvents |

`ManifestMerger.MissingEventsLeakUndefined` proves the leak for the as-written fold. The fold
step `ManifestMerger.FoldOne` uses the corrected `ManifestMerger.FoldEvents`, and
`ManifestMerger.FoldAllEventsDistinct` proves that the merged events are exactly the declared
ones, each once, in first-seen order.

=== FILE: assets.dfy ===
/** The file copies that fold extension assets into the pack (scripts/o2/general-pack.ts,
    lines 110-149). A directory tree is modelled one level deep: the pack maps each
    top-level folder name to its files (relative path to content), and the extension
    directories on disk are a map from where a folder would be to what it holds. */
module Assets {
  import opened Wrappers
  import opened Seqs
  import opened PackModel

  /** The files under one folder, by relative path. */
  type Folder = map<string, string>

  /** The pack directory: top-level folder name to its files. */
  type Tree = map<string, Folder>

  /** Where a folder is read from: `TMP_DIR` for fetched ("other") extensions,
      `EXTENSIONS_DIRECTORY` for the repository's own, then the extension and folder name. */
  datatype SourceKey = SourceKey(isOther: bool, extensionName: string, folder: string)

  /** The extension folders that exist on disk. */
  type Sources = map<SourceKey, Folder>

  const BuildFolder: string := "build"

  // ---------------------------------------------------------------------------
  // the folders to replace

  /** Each extension's declared asset folders. */
  function DeclaredLists(exts: seq<ExtensionDescriptor>): (r: seq<seq<string>>)
    ensures |r| == |exts|
    ensures forall i :: 0 <= i < |exts| ==> r[i] == exts[i].assetsFolders
  {
    seq(|exts|, i requires 0 <= i < |exts| => exts[i].assetsFolders)
  }

  /** Every extension's declared asset folders, concatenated in extension order (lines 111-114). */
  function Declared(exts: seq<ExtensionDescriptor>): seq<string> {
    Flatten(DeclaredLists(exts))
  }

  /** `unionBy(allAssetsFolders)`: every declared folder once, first-seen order. */
  function AllAssetsFolders(exts: seq<ExtensionDescriptor>): (r: seq<string>)
    ensures UniqueBy(r, Id)
    ensures forall d :: d in r <==> d in Declared(exts)
  {
    var r := UnionBy(Declared(exts), Id);
    forall d ensures d in r <==> d in Declared(exts) {
      KeysOfId(r, d);
      KeysOfId(Declared(exts), d);
    }
    r
  }

  /** A folder is replaced exactly when some extension declares it. */
  lemma AllAssetsFoldersMembers(exts: seq<ExtensionDescriptor>, d: string)
    ensures d in AllAssetsFolders(exts) <==>
      exists i, j :: 0 <= i < |exts| && 0 <= j < |exts[i].assetsFolders| && exts[i].assetsFolders[j] == d
  {
    var lists := DeclaredLists(exts);
    if d in Declared(exts) {
      FlattenMember(lists, d);
      var i, j :| 0 <= i < |lists| && 0 <= j < |lists[i]| && lists[i][j] == d;
      assert exts[i].assetsFolders[j] == d;
    }
    if exists i, j :: 0 <= i < |exts| && 0 <= j < |exts[i].assetsFolders| && exts[i].assetsFolders[j] == d {
      var i, j :| 0 <= i < |exts| && 0 <= j < |exts[i].assetsFolders| && exts[i].assetsFolders[j] == d;
      FlattenIndex(lists, i, j);
    }
  }

  /** Each listed folder of the pack directory is deleted (lines 116-118). */
  function RemoveFolders(t: Tree, folders: seq<string>): (r: Tree)
    ensures forall d :: d in r <==> d in t && d !in folders
    ensures forall d :: d in r ==> r[d] == t[d]
  {
    map d | d in t && d !in folders :: t[d]
  }

  // ---------------------------------------------------------------------------
  // copying

  /** An overwriting copy of an existing source folder (lines 129-131): the files of
      the source are written over the destination, which keeps its other files. */
  function CopyFolder(t: Tree, dest: string, src: Folder): (r: Tree)
    ensures r.Keys == t.Keys + {dest}
    ensures forall f :: f in src ==> f in r[dest] && r[dest][f] == src[f]
    ensures dest in t ==> forall f :: f in t[dest] && f !in src ==> f in r[dest] && r[dest][f] == t[dest][f]
    ensures forall f :: f in r[dest] ==> f in src || (dest in t && f in t[dest])
    ensures forall d :: d in t && d != dest ==> r[d] == t[d]
  {
    var before := if dest in t then t[dest] else map[];
    t[dest := before + src]
  }

  /** The copies, in order: each job whose source exists lands on its folder name. */
  function ApplyCopies(t: Tree, sources: Sources, jobs: seq<SourceKey>): Tree
    decreases |jobs|
  {
    if |jobs| == 0 then t
    else
      var before := ApplyCopies(t, sources, jobs[..|jobs| - 1]);
      var j := jobs[|jobs| - 1];
      if j in sources then CopyFolder(before, j.folder, sources[j]) else before
  }

  /** Reference definition: what the jobs write to folder `d`, or `None` when none of
      them has a source folder there. */
  function Gathered(sources: Sources, jobs: seq<SourceKey>, d: string): Option<Folder>
    decreases |jobs|
  {
    if |jobs| == 0 then None
    else
      var g := Gathered(sources, jobs[..|jobs| - 1], d);
      var j := jobs[|jobs| - 1];
      if j.folder == d && j in sources then Some(g.GetOr(map[]) + sources[j]) else g
  }

  /** Each folder of the tree after the copies is the folder before them overlaid with
      what the jobs gather for it. */
  lemma {:induction false} ApplyCopiesAt(t: Tree, sources: Sources, jobs: seq<SourceKey>, d: string)
    ensures var r := ApplyCopies(t, sources, jobs);
      match Gathered(sources, jobs, d)
      case None => (d in r <==> d in t) && (d in t ==> r[d] == t[d])
      case Some(g) => d in r && r[d] == (if d in t then t[d] else map[]) + g
    decreases |jobs|
  {
    if |jobs| > 0 {
      var init := jobs[..|jobs| - 1];
      ApplyCopiesAt(t, sources, init, d);
      var j := jobs[|jobs| - 1];
      var prev := ApplyCopies(t, sources, init);
      if j.folder == d && j in sources {
        var before := if d in t then t[d] else map[];
        var had := if d in prev then prev[d] else map[];
        if Gathered(sources, init, d).None? {
          assert had == before;
          assert map[] + sources[j] == sources[j];
        } else {
          MergeAssociates(before, Gathered(sources, init, d).value, sources[j]);
        }
      } else {
        assert ApplyCopies(t, sources, jobs) == (if j in sources then CopyFolder(prev, j.folder, sources[j]) else prev);
        assert Gathered(sources, jobs, d) == Gathered(sources, init, d);
      }
    }
  }

  /** Overwriting merges of file maps associate. */
  lemma MergeAssociates(a: Folder, b: Folder, c: Folder)
    ensures a + b + c == a + (b + c)
  {
  }

  /** The last job with a source for `d` that holds file `f` decides its content. */
  lemma {:induction false} GatheredLastWins(sources: Sources, jobs: seq<SourceKey>, d: string, i: nat, f: string)
    requires i < |jobs| && jobs[i].folder == d && jobs[i] in sources && f in sources[jobs[i]]
    requires forall k :: i < k < |jobs| && jobs[k].folder == d && jobs[k] in sources ==> f !in sources[jobs[k]]
    ensures Gathered(sources, jobs, d).Some?
    ensures f in Gathered(sources, jobs, d).value
    ensures Gathered(sources, jobs, d).value[f] == sources[jobs[i]][f]
    decreases |jobs|
  {
    var init := jobs[..|jobs| - 1];
    if i < |jobs| - 1 {
      assert init[i] == jobs[i];
      GatheredLastWins(sources, init, d, i, f);
    }
  }

  /** Only jobs for `d` contribute to `d`, and only files their sources hold. */
  lemma {:induction false} GatheredFrom(sources: Sources, jobs: seq<SourceKey>, d: string, f: string)
    requires Gathered(sources, jobs, d).Some? && f in Gathered(sources, jobs, d).value
    ensures exists k :: 0 <= k < |jobs| && jobs[k].folder == d && jobs[k] in sources && f in sources[jobs[k]]
    decreases |jobs|
  {
    var init := jobs[..|jobs| - 1];
    var j := jobs[|jobs| - 1];
    if !(j.folder == d && j in sources && f in sources[j]) {
      GatheredFrom(sources, init, d, f);
      var k :| 0 <= k < |init| && init[k].folder == d && init[k] in sources && f in sources[init[k]];
      assert jobs[k] == init[k];
    }
  }

  /** A folder no job names gathers nothing. */
  lemma {:induction false} GatheredNone(sources: Sources, jobs: seq<SourceKey>, d: string)
    requires forall k :: 0 <= k < |jobs| ==> jobs[k].folder != d
    ensures Gathered(sources, jobs, d).None?
    decreases |jobs|
  {
    if |jobs| > 0 {
      GatheredNone(sources, jobs[..|jobs| - 1], d);
    }
  }

  // ---------------------------------------------------------------------------
  // copyExtensionAssets2Pack

  /** The copies one extension asks for, one per declared folder. */
  function JobsOf(e: ExtensionDescriptor): (r: seq<SourceKey>)
    ensures |r| == |e.assetsFolders|
    ensures forall j :: 0 <= j < |r| ==>
      r[j].folder == e.assetsFolders[j] && r[j].isOther == e.isOther && r[j].extensionName == e.extensionName
  {
    seq(|e.assetsFolders|, j requires 0 <= j < |e.assetsFolders| =>
      SourceKey(e.isOther, e.extensionName, e.assetsFolders[j]))
  }

  /** The nested loop's copies, extension by extension. */
  function CopyJobs(exts: seq<ExtensionDescriptor>): (r: seq<SourceKey>)
    ensures |r| == |Declared(exts)|
    ensures forall k :: 0 <= k < |r| ==> r[k].folder == Declared(exts)[k]
    decreases |exts|
  {
    if |exts| == 0 then []
    else
      var init := exts[..|exts| - 1];
      assert DeclaredLists(exts) == DeclaredLists(init) + [exts[|exts| - 1].assetsFolders];
      assert Declared(exts) == Declared(init) + exts[|exts| - 1].assetsFolders;
      CopyJobs(init) + JobsOf(exts[|exts| - 1])
  }

  /** The copies of a list of extensions are those of all but the last, then the last's
      own, so every copy reads the directory of the extension that declared its folder. */
  lemma CopyJobsAppend(exts: seq<ExtensionDescriptor>, e: ExtensionDescriptor)
    ensures CopyJobs(exts + [e]) == CopyJobs(exts) + JobsOf(e)
  {
    assert (exts + [e])[..|exts|] == exts;
  }

  /** `copyExtensionAssets2Pack`. */
  function CopyAssets(t: Tree, sources: Sources, exts: seq<ExtensionDescriptor>): (r: Tree)
    // only declared folders are created; every other folder is left as it was
    ensures forall d :: d in r ==> d in t || d in Declared(exts)
    ensures forall d :: d in t && d !in Declared(exts) ==> d in r && r[d] == t[d]
  {
    var jobs := CopyJobs(exts);
    var removed := RemoveFolders(t, AllAssetsFolders(exts));
    var r := ApplyCopies(removed, sources, jobs);
    forall d | d !in Declared(exts) ensures (d in r <==> d in t) && (d in t ==> r[d] == t[d]) {
      ApplyCopiesAt(removed, sources, jobs, d);
      GatheredNone(sources, jobs, d);
    }
    r
  }

  /** Folders no extension declares are left alone; every declared folder is rebuilt from
      the extensions' sources alone, so no file of the old pack survives in it. */
  lemma CopyAssetsFolder(t: Tree, sources: Sources, exts: seq<ExtensionDescriptor>, d: string)
    ensures var r := CopyAssets(t, sources, exts);
      var g := Gathered(sources, CopyJobs(exts), d);
      if d in Declared(exts) then (d in r <==> g.Some?) && (g.Some? ==> r[d] == g.value)
      else (d in r <==> d in t) && (d in t ==> r[d] == t[d])
  {
    var jobs := CopyJobs(exts);
    var removed := RemoveFolders(t, AllAssetsFolders(exts));
    ApplyCopiesAt(removed, sources, jobs, d);
    if d !in Declared(exts) {
      GatheredNone(sources, jobs, d);
    } else {
      var g := Gathered(sources, jobs, d);
      if g.Some? {
        assert map[] + g.value == g.value;
      }
    }
  }

  // ---------------------------------------------------------------------------
  // copyExtensionWebviewFiles2Pack

  predicate OwnExtension(e: ExtensionDescriptor) { !e.isOther }

  /** The `build` folders copied: those of the repository's own extensions, in order. */
  function BuildJobs(exts: seq<ExtensionDescriptor>): (r: seq<SourceKey>)
    ensures forall k :: 0 <= k < |r| ==> r[k].folder == BuildFolder && !r[k].isOther
    // exactly the repository's own extensions, in order
    ensures forall k :: 0 <= k < |r| ==> exists i :: 0 <= i < |exts| && !exts[i].isOther && r[k].extensionName == exts[i].extensionName
    ensures forall i :: 0 <= i < |exts| && !exts[i].isOther ==> SourceKey(false, exts[i].extensionName, BuildFolder) in r
  {
    var own := Filter(OwnExtension, exts);
    var r := seq(|own|, k requires 0 <= k < |own| => SourceKey(false, own[k].extensionName, BuildFolder));
    forall i | 0 <= i < |exts| && !exts[i].isOther ensures SourceKey(false, exts[i].extensionName, BuildFolder) in r {
      assert OwnExtension(exts[i]);
      var k :| 0 <= k < |own| && own[k] == exts[i];
      assert r[k] == SourceKey(false, exts[i].extensionName, BuildFolder);
    }
    forall k | 0 <= k < |r| ensures exists i :: 0 <= i < |exts| && !exts[i].isOther && r[k].extensionName == exts[i].extensionName {
      assert own[k] in exts && OwnExtension(own[k]);
      var i :| 0 <= i < |exts| && exts[i] == own[k];
    }
    r
  }

  /** The `build` copies follow the order of the extensions: those of `a`, then those of `b`. */
  lemma BuildJobsAppend(a: seq<ExtensionDescriptor>, b: seq<ExtensionDescriptor>)
    ensures BuildJobs(a + b) == BuildJobs(a) + BuildJobs(b)
  {
    FilterAppend(OwnExtension, a, b);
  }

  /** One extension gives one `build` copy from its own directory when it is the
      repository's own, and none when it is fetched. */
  lemma BuildJobsSingleton(e: ExtensionDescriptor)
    ensures BuildJobs([e]) == if e.isOther then [] else [SourceKey(false, e.extensionName, BuildFolder)]
  {
    FilterSingleton(OwnExtension, e);
  }

  /** `copyExtensionWebviewFiles2Pack`. */
  function CopyWebview(t: Tree, sources: Sources, exts: seq<ExtensionDescriptor>): (r: Tree)
    // only `build` is touched
    ensures forall d :: d != BuildFolder ==> (d in r <==> d in t)
    ensures forall d :: d in t && d != BuildFolder ==> r[d] == t[d]
  {
    var jobs := BuildJobs(exts);
    var removed := RemoveFolders(t, [BuildFolder]);
    var r := ApplyCopies(removed, sources, jobs);
    forall d | d != BuildFolder ensures (d in r <==> d in t) && (d in t ==> r[d] == t[d]) {
      ApplyCopiesAt(removed, sources, jobs, d);
      GatheredNone(sources, jobs, d);
    }
    r
  }

  /** The extension pack's `build` folder is rebuilt from the own extensions' `build` folders alone;
      every other folder is left alone. */
  lemma CopyWebviewFolder(t: Tree, sources: Sources, exts: seq<ExtensionDescriptor>, d: string)
    ensures var r := CopyWebview(t, sources, exts);
      var g := Gathered(sources, BuildJobs(exts), BuildFolder);
      if d == BuildFolder then (d in r <==> g.Some?) && (g.Some? ==> r[d] == g.value)
      else (d in r <==> d in t) && (d in t ==> r[d] == t[d])
  {
    var jobs := BuildJobs(exts);
    var removed := RemoveFolders(t, [BuildFolder]);
    ApplyCopiesAt(removed, sources, jobs, d);
    if d != BuildFolder {
      GatheredNone(sources, jobs, d);
    } else {
      var g := Gathered(sources, jobs, d);
      if g.Some? {
        assert map[] + g.value == g.value;
      }
    }
  }
}

=== FILE: doc_info_cache.dfy ===
/** The component documentation cache of the material helper
    (extensions/material-helper/src/componentDocSupport/docInfoCache.ts): a two-state
    cache, loading and then ready, filled once from the material sources of the project.
    Fetching the sources is outside this model; their data is an input. */
module DocInfoCache {
  import opened Wrappers
  import opened Seqs

  /** A component or base of a material source; `description` may be absent. */
  datatype MaterialItem = MaterialItem(name: string, title: string, description: Option<string>, homepage: string)

  /** The data of one material source; `bases` may be absent. */
  datatype MaterialData = MaterialData(components: seq<MaterialItem>, bases: Option<seq<MaterialItem>>)

  /** One documentation entry offered to the editor; `caption` is the `label` field. */
  datatype DocInfo = DocInfo(caption: string, detail: string, description: string, url: string)

  /** The module state: the `loading` flag and the cached entries. */
  datatype Cache = Cache(loading: bool, docInfos: seq<DocInfo>)

  /** The state when the module is loaded. */
  const Initial: Cache := Cache(true, [])

  /** What `getDocInfos` gives back, and whether it showed the "still loading" notice. */
  datatype Answer = Answer(docs: seq<DocInfo>, notified: bool)

  /** `getDocInfos()`. */
  function GetDocInfos(c: Cache): (r: Answer)
    ensures c.loading ==> |r.docs| == 0
    ensures r.notified <==> c.loading
    ensures !c.loading ==> r.docs == c.docInfos
  {
    if !c.loading then Answer(c.docInfos, false) else Answer([], true)
  }

  /** One entry from one component or base. */
  function ToDocInfo(e: MaterialItem): (r: DocInfo)
    ensures r.caption == e.name && r.detail == e.title && r.url == e.homepage
    ensures r.description == e.description.GetOr("")
  {
    DocInfo(e.name, e.title, if e.description.Some? then e.description.value else "", e.homepage)
  }

  /** `getDocInfoFromMaterial(sourceJson)`: components first, then bases. */
  function FromMaterial(m: MaterialData): (r: seq<DocInfo>)
    ensures |r| == |m.components| + |m.bases.GetOr([])|
    ensures forall i :: 0 <= i < |m.components| ==> r[i] == ToDocInfo(m.components[i])
    ensures forall j :: 0 <= j < |m.bases.GetOr([])| ==> r[|m.components| + j] == ToDocInfo(m.bases.GetOr([])[j])
  {
    var items := m.components + m.bases.GetOr([]);
    seq(|items|, i requires 0 <= i < |items| => ToDocInfo(items[i]))
  }

  /** The per-source entry lists, in source order. */
  function PerSource(datas: seq<MaterialData>): (r: seq<seq<DocInfo>>)
    ensures |r| == |datas|
    ensures forall k :: 0 <= k < |datas| ==> r[k] == FromMaterial(datas[k])
  {
    seq(|datas|, k requires 0 <= k < |datas| => FromMaterial(datas[k]))
  }

  /** `originGetDocInfos()`: the sources' lists concatenated with `reduce`. */
  function OriginGetDocInfos(datas: seq<MaterialData>): (r: seq<DocInfo>)
    // every entry of every source is offered, and nothing else is
    ensures forall k, i :: 0 <= k < |datas| && 0 <= i < |FromMaterial(datas[k])| ==> FromMaterial(datas[k])[i] in r
    ensures forall e :: e in r ==> exists k :: 0 <= k < |datas| && e in FromMaterial(datas[k])
  {
    var per := PerSource(datas);
    var r := Flatten(per);
    forall k, i | 0 <= k < |datas| && 0 <= i < |FromMaterial(datas[k])| ensures FromMaterial(datas[k])[i] in r {
      FlattenIndex(per, k, i);
    }
    forall e | e in r ensures exists k :: 0 <= k < |datas| && e in FromMaterial(datas[k]) {
      FlattenMember(per, e);
      var k, i :| 0 <= k < |per| && 0 <= i < |per[k]| && per[k][i] == e;
      assert e in FromMaterial(datas[k]);
    }
    r
  }

  /** The entries of the sources in total. */
  function EntryCount(datas: seq<MaterialData>): nat
    decreases |datas|
  {
    if |datas| == 0 then 0
    else EntryCount(datas[..|datas| - 1]) + |datas[|datas| - 1].components| + |datas[|datas| - 1].bases.GetOr([])|
  }

  /** The per-source lists hold as many entries as the sources' components and bases. */
  lemma {:induction false} PerSourceLengths(datas: seq<MaterialData>)
    ensures SumLengths(PerSource(datas)) == EntryCount(datas)
    decreases |datas|
  {
    if |datas| > 0 {
      var init := datas[..|datas| - 1];
      var per := PerSource(datas);
      assert per[..|per| - 1] == PerSource(init);
      assert SumLengths(per) == SumLengths(PerSource(init)) + |FromMaterial(datas[|datas| - 1])|;
      PerSourceLengths(init);
    }
  }

  /** The result is as long as all sources' components and bases together. */
  lemma OriginLength(datas: seq<MaterialData>)
    ensures |OriginGetDocInfos(datas)| == EntryCount(datas)
  {
    PerSourceLengths(datas);
  }

  /** Sources contribute in order: the result for two runs of sources is the two results
      one after the other. */
  lemma OriginAppend(a: seq<MaterialData>, b: seq<MaterialData>)
    ensures OriginGetDocInfos(a + b) == OriginGetDocInfos(a) + OriginGetDocInfos(b)
  {
    assert PerSource(a + b) == PerSource(a) + PerSource(b);
    FlattenAppend(PerSource(a), PerSource(b));
  }

  /** Component `i` of source `k` sits right after the entries of the sources before `k`,
      and base `j` right after that source's components. */
  lemma OriginEntryAt(datas: seq<MaterialData>, k: nat, i: nat)
    requires k < |datas| && i < |datas[k].components| + |datas[k].bases.GetOr([])|
    ensures EntryCount(datas[..k]) + i < |OriginGetDocInfos(datas)|
    ensures i < |datas[k].components| ==>
      OriginGetDocInfos(datas)[EntryCount(datas[..k]) + i] == ToDocInfo(datas[k].components[i])
    ensures i >= |datas[k].components| ==>
      OriginGetDocInfos(datas)[EntryCount(datas[..k]) + i] == ToDocInfo(datas[k].bases.GetOr([])[i - |datas[k].components|])
  {
    PerSourceEntryAt(datas, k, i);
    assert OriginGetDocInfos(datas) == Flatten(PerSource(datas));
    if i >= |datas[k].components| {
      var j := i - |datas[k].components|;
      assert i == |datas[k].components| + j;
    }
  }

  lemma PerSourceEntryAt(datas: seq<MaterialData>, k: nat, i: nat)
    requires k < |datas| && i < |FromMaterial(datas[k])|
    ensures EntryCount(datas[..k]) + i < |Flatten(PerSource(datas))|
    ensures Flatten(PerSource(datas))[EntryCount(datas[..k]) + i] == FromMaterial(datas[k])[i]
  {
    var per := PerSource(datas);
    assert per[..k] == PerSource(datas[..k]);
    PerSourceLengths(datas[..k]);
    FlattenIndex(per, k, i);
  }


  /** `initDocInfos()`, given what fetching the sources produced: when any fetch rejects,
      the `await` throws before `loading` is cleared, and the cache is left as it was. */
  function InitDocInfos(c: Cache, fetched: Result<seq<MaterialData>>): (r: Cache)
    ensures fetched.Success? ==> !r.loading
    ensures fetched.Success? ==> GetDocInfos(r) == Answer(OriginGetDocInfos(fetched.value), false)
    ensures fetched.Failure? ==> r == c
  {
    match fetched
    case Success(datas) => Cache(false, OriginGetDocInfos(datas))
    case Failure(_) => c
  }

  /** Before initialisation the accessor answers with nothing and shows the notice; after
      it, with exactly the entries of the sources, silently. */
  lemma CacheLifecycle(datas: seq<MaterialData>)
    ensures GetDocInfos(Initial) == Answer([], true)
    ensures GetDocInfos(InitDocInfos(Initial, Success(datas))) == Answer(OriginGetDocInfos(datas), false)
  {
  }

  /** A failed initialisation changes no answer: from the start state the accessor keeps
      answering with nothing and the notice. */
  lemma FailedInitStaysLoading(c: Cache, e: string)
    ensures GetDocInfos(InitDocInfos(c, Failure(e))) == GetDocInfos(c)
    ensures GetDocInfos(InitDocInfos(Initial, Failure(e))) == Answer([], true)
  {
  }

  /** A successful initialisation replaces the cache, whatever came before, and a failed
      one after it keeps the entries it loaded. */
  lemma InitReplaces(c: Cache, a: Result<seq<MaterialData>>, b: seq<MaterialData>, e: string)
    ensures InitDocInfos(InitDocInfos(c, a), Success(b)) == InitDocInfos(c, Success(b))
    ensures InitDocInfos(InitDocInfos(c, Success(b)), Failure(e)) == InitDocInfos(c, Success(b))
  {
  }
}

=== FILE: locale.dfy ===
/** Localization bundles of the pack (scripts/o2/general-pack.ts): which files of an
    extension are collected (lines 194-204) and how each collected file is merged into the file
    of the same name in the pack directory (lines 96-109). Tables are flat string maps; a nested
    table is outside this model. */
module Locale {
  import opened Wrappers
  import opened Seqs
  import opened Strs

  /** One localization table, key to translated string. */
  type Table = map<string, string>

  /** A collected localization file: its name and its parsed content. */
  datatype NlsContent = NlsContent(fileName: string, content: Table)

  const NlsPrefix: string := "package.nls"

  /** A localization file is one whose name begins with `package.nls` (line 196). */
  predicate IsNlsFile(fileName: string) {
    IndexOf(fileName, NlsPrefix) == 0
  }

  /** The localization files among an extension directory's entries, in listing order. */
  function NlsFiles(listing: seq<string>): (r: seq<string>)
    ensures forall i :: 0 <= i < |r| ==> r[i] in listing && StartsWith(r[i], NlsPrefix)
    ensures forall i :: 0 <= i < |listing| && StartsWith(listing[i], NlsPrefix) ==> listing[i] in r
  {
    var r := Filter(IsNlsFile, listing);
    forall f | true ensures IsNlsFile(f) <==> StartsWith(f, NlsPrefix) {
      IndexOfZeroIsPrefix(f, NlsPrefix);
    }
    r
  }

  /** `merge(nlsJSON, content)` for flat tables: a shallow key union where the incoming
      keys win. A file that cannot be read (`None`) starts as the empty table. */
  function MergeTable(existing: Option<Table>, incoming: Table): (r: Table)
    ensures r.Keys == existing.GetOr(map[]).Keys + incoming.Keys
    ensures forall k :: k in incoming ==> r[k] == incoming[k]
    ensures forall k :: k in existing.GetOr(map[]) && k !in incoming ==> r[k] == existing.GetOr(map[])[k]
    ensures existing.None? ==> r == incoming
  {
    existing.GetOr(map[]) + incoming
  }

  /** Looking a file up on disk: absent means the read fails. */
  function ReadTable(disk: map<string, Table>, fileName: string): Option<Table> {
    if fileName in disk then Some(disk[fileName]) else None
  }

  /** The names of the collected files. */
  function FileNames(values: seq<NlsContent>): set<string> {
    set i | 0 <= i < |values| :: values[i].fileName
  }

  lemma FileNamesSnoc(init: seq<NlsContent>, v: NlsContent)
    ensures FileNames(init + [v]) == FileNames(init) + {v.fileName}
  {
    var values := init + [v];
    assert forall i :: 0 <= i < |init| ==> values[i] == init[i];
    assert values[|init|] == v;
  }

  /** `mergeExtensionsNlsJSON2Pack(values)`: each collected file, in order, is merged into
      the file of the same name in the pack directory and written back. */
  function MergeNlsFiles(disk: map<string, Table>, values: seq<NlsContent>): (r: map<string, Table>)
    ensures r.Keys == disk.Keys + FileNames(values)
    decreases |values|
  {
    if |values| == 0 then disk
    else
      var init := values[..|values| - 1];
      var before := MergeNlsFiles(disk, init);
      var v := values[|values| - 1];
      FileNamesSnoc(init, v);
      assert values == init + [v];
      before[v.fileName := MergeTable(ReadTable(before, v.fileName), v.content)]
  }

  /** A file nobody contributes to is left as it was on disk. */
  lemma {:induction false} MergeNlsUntouched(disk: map<string, Table>, values: seq<NlsContent>, f: string)
    requires f in disk
    requires forall i :: 0 <= i < |values| ==> values[i].fileName != f
    ensures MergeNlsFiles(disk, values)[f] == disk[f]
    decreases |values|
  {
    if |values| > 0 {
      var init := values[..|values| - 1];
      assert forall i :: 0 <= i < |init| ==> init[i] == values[i];
      MergeNlsUntouched(disk, init, f);
    }
  }

  /** Some contribution to file `f` carries key `k`. */
  predicate Contributed(values: seq<NlsContent>, f: string, k: string) {
    exists i :: 0 <= i < |values| && values[i].fileName == f && k in values[i].content
  }

  lemma ContributedSnoc(init: seq<NlsContent>, v: NlsContent, f: string, k: string)
    ensures Contributed(init + [v], f, k) <==> Contributed(init, f, k) || (v.fileName == f && k in v.content)
  {
    var values := init + [v];
    if Contributed(values, f, k) && !(v.fileName == f && k in v.content) {
      var i :| 0 <= i < |values| && values[i].fileName == f && k in values[i].content;
      assert i < |init| && init[i] == values[i];
    }
    if Contributed(init, f, k) {
      var i :| 0 <= i < |init| && init[i].fileName == f && k in init[i].content;
      assert values[i] == init[i];
    }
    if v.fileName == f && k in v.content {
      assert values[|init|] == v;
    }
  }

  /** Merging keeps keys and adds no others: a file of the result holds exactly the keys it
      had on disk and the keys any contribution to it carries. */
  lemma {:induction false} MergeNlsKeepsKeys(disk: map<string, Table>, values: seq<NlsContent>, f: string, k: string)
    ensures (f in disk && k in disk[f]) || Contributed(values, f, k) ==> f in MergeNlsFiles(disk, values)
    ensures f in MergeNlsFiles(disk, values) ==>
      (k in MergeNlsFiles(disk, values)[f] <==> (f in disk && k in disk[f]) || Contributed(values, f, k))
    decreases |values|
  {
    if Contributed(values, f, k) {
      var i :| 0 <= i < |values| && values[i].fileName == f && k in values[i].content;
      assert f in FileNames(values);
    }
    if |values| > 0 {
      var init := values[..|values| - 1];
      var v := values[|values| - 1];
      assert values == init + [v];
      ContributedSnoc(init, v, f, k);
      MergeNlsKeepsKeys(disk, init, f, k);
    }
  }

  /** A key on disk that no contribution to its file carries keeps its value from disk. */
  lemma {:induction false} MergeNlsKeepsValue(disk: map<string, Table>, values: seq<NlsContent>, f: string, k: string)
    requires f in disk && k in disk[f]
    requires forall i :: 0 <= i < |values| && values[i].fileName == f ==> k !in values[i].content
    ensures f in MergeNlsFiles(disk, values) && k in MergeNlsFiles(disk, values)[f]
    ensures MergeNlsFiles(disk, values)[f][k] == disk[f][k]
    decreases |values|
  {
    if |values| > 0 {
      var init := values[..|values| - 1];
      assert forall i :: 0 <= i < |init| ==> init[i] == values[i];
      MergeNlsKeepsValue(disk, init, f, k);
    }
  }

  /** The last contribution to a file that carries a key decides that key's value. */
  lemma {:induction false} MergeNlsLastWins(disk: map<string, Table>, values: seq<NlsContent>, i: nat, k: string)
    requires i < |values| && k in values[i].content
    requires forall j :: i < j < |values| && values[j].fileName == values[i].fileName ==> k !in values[j].content
    ensures values[i].fileName in MergeNlsFiles(disk, values)
    ensures k in MergeNlsFiles(disk, values)[values[i].fileName]
    ensures MergeNlsFiles(disk, values)[values[i].fileName][k] == values[i].content[k]
    decreases |values|
  {
    var init := values[..|values| - 1];
    if i < |values| - 1 {
      assert init[i] == values[i];
      MergeNlsLastWins(disk, init, i, k);
    }
  }

  /** The merge rule's worked case: `{a: "1"}` then `{a: "2", b: "3"}` gives
      `{a: "2", b: "3"}`, starting from a file that does not exist yet. */
  lemma MergeNlsExample()
    ensures var f := "package.nls.json";
      MergeNlsFiles(map[], [NlsContent(f, map["a" := "1"]), NlsContent(f, map["a" := "2", "b" := "3"])])[f]
        == map["a" := "2", "b" := "3"]
  {
    var f := "package.nls.json";
    var vs := [NlsContent(f, map["a" := "1"]), NlsContent(f, map["a" := "2", "b" := "3"])];
    assert vs[..1] == [NlsContent(f, map["a" := "1"])];
    assert vs[..1][..0] == [];
    assert MergeNlsFiles(map[], vs[..1]) == map[f := map["a" := "1"]];
  }
}

=== FILE: merger.dfy ===
/** The manifest fold of `getExtensionsRelatedInfo` (scripts/o2/general-pack.ts,
    lines 151-192): every included extension's manifest is folded, in an explicit order,
    into one accumulated pack manifest. */
module ManifestMerger {
  import opened Wrappers
  import opened Seqs
  import opened PackModel

  /** The accumulated fields of the pack manifest. */
  datatype PackManifest = PackManifest(
    commands: seq<Command>,
    iceworksApp: seq<AppView>,
    activationEvents: seq<string>,
    dependencies: map<string, string>,
    kaitianContributes: map<string, string>)

  /** The accumulator's starting value (line 152). */
  const EmptyPack: PackManifest := PackManifest([], [], [], map[], map[])

  /** The host-specific entry overrides deleted from every extension (lines 168-170). */
  const EntryOverrides: set<string> := {"nodeMain", "browserMain", "workerMain"}

  /** The accumulator invariant: set-valued fields are duplicate-free by their key, and
      no entry override has been merged. */
  ghost predicate Wellformed(p: PackManifest) {
    && UniqueBy(p.commands, CommandId)
    && UniqueBy(p.iceworksApp, ViewId)
    && UniqueBy(p.activationEvents, Id)
    && EntryOverrides !! p.kaitianContributes.Keys
  }

  /** The dependency name an extension is added under (line 187). */
  function DependencyKey(cfg: Config, name: string): (r: string)
    // without publishing, the local name gets the channel's registry prefix; with it, the
    // manifest read back already carries the registry name and is used as it is
    ensures !cfg.pushExtension2NPM ==> r == NpmName(cfg.isBeta, name)
    ensures cfg.pushExtension2NPM ==> r == name
  {
    if cfg.pushExtension2NPM then name else NpmName(cfg.isBeta, name)
  }

  /** The dependency range an extension is added with (line 187). */
  function DependencyValue(cfg: Config, version: string): (r: string)
    // the publish flag plays no part: a stable pack pins the version, a beta pack any
    ensures !cfg.isBeta ==> r == version
    ensures cfg.isBeta ==> r == "*"
  {
    if !cfg.isBeta then version else "*"
  }

  /** The activation events an extension declares, an absent list counting as none. */
  function DeclaredEvents(m: Manifest): seq<string> {
    m.activationEvents.GetOr([])
  }

  /** `unionBy(acc.concat(events))` with an absent list treated as empty. */
  function FoldEvents(acc: seq<string>, events: Option<seq<string>>): (r: seq<string>)
    ensures UniqueBy(r, Id)
    ensures KeysOf(r, Id) == KeysOf(acc, Id) + KeysOf(events.GetOr([]), Id)
  {
    KeysOfConcat(acc, events.GetOr([]), Id);
    UnionBy(acc + events.GetOr([]), Id)
  }

  /** `unionBy(acc.concat(events))` as written: `concat(undefined)` appends `undefined`
      itself when the manifest has no `activationEvents`. */
  function FoldEventsAsWritten(acc: seq<Option<string>>, events: Option<seq<string>>): (r: seq<Option<string>>)
    ensures UniqueBy(r, Id)
  {
    var incoming := match events
      case Some(es) => seq(|es|, i requires 0 <= i < |es| => Some(es[i]))
      case None => [None];
    UnionBy(acc + incoming, Id)
  }

  /** A manifest without `activationEvents` leaves an `undefined` entry (written out as
      `null`) in the extension pack's activation events, whatever was accumulated before. */
  lemma MissingEventsLeakUndefined(acc: seq<Option<string>>)
    ensures None in FoldEventsAsWritten(acc, None)
  {
    var r := FoldEventsAsWritten(acc, None);
    KeysOfConcat(acc, [None], Id);
    assert Id<Option<string>>([None][0]) == None;
    assert None in KeysOf(r, Id);
    var i :| 0 <= i < |r| && Id(r[i]) == None;
  }

  /** One step of the fold (lines 174-192), for the extension manifest `m`. */
  function FoldOne(cfg: Config, acc: PackManifest, m: Manifest): (r: PackManifest)
    ensures Wellformed(acc) ==> Wellformed(r)
    // set-valued fields: the union of the keys, and nothing accumulated earlier moves
    ensures KeysOf(r.commands, CommandId) == KeysOf(acc.commands, CommandId) + KeysOf(m.commands, CommandId)
    ensures KeysOf(r.iceworksApp, ViewId) == KeysOf(acc.iceworksApp, ViewId) + KeysOf(m.iceworksApp, ViewId)
    ensures KeysOf(r.activationEvents, Id) == KeysOf(acc.activationEvents, Id) + KeysOf(DeclaredEvents(m), Id)
    ensures Wellformed(acc) ==>
      acc.commands <= r.commands && acc.iceworksApp <= r.iceworksApp && acc.activationEvents <= r.activationEvents
    // the dependency entry
    ensures r.dependencies.Keys == acc.dependencies.Keys + {DependencyKey(cfg, m.name)}
    ensures r.dependencies[DependencyKey(cfg, m.name)] == DependencyValue(cfg, m.version)
    ensures forall k :: k in acc.dependencies && k != DependencyKey(cfg, m.name) ==> r.dependencies[k] == acc.dependencies[k]
    // kaitianContributes: a shallow merge of the stripped map, incoming keys winning
    ensures r.kaitianContributes.Keys == acc.kaitianContributes.Keys + (m.kaitianContributes.Keys - EntryOverrides)
    ensures forall k :: k in m.kaitianContributes && k !in EntryOverrides ==> r.kaitianContributes[k] == m.kaitianContributes[k]
    ensures forall k :: k in acc.kaitianContributes && (k !in m.kaitianContributes || k in EntryOverrides) ==>
      r.kaitianContributes[k] == acc.kaitianContributes[k]
  {
    KeysOfConcat(acc.commands, m.commands, CommandId);
    KeysOfConcat(acc.iceworksApp, m.iceworksApp, ViewId);
    UnionKeepsUniquePrefix(acc.commands, m.commands, CommandId);
    UnionKeepsUniquePrefix(acc.iceworksApp, m.iceworksApp, ViewId);
    UnionKeepsUniquePrefix(acc.activationEvents, DeclaredEvents(m), Id);
    PackManifest(
      UnionBy(acc.commands + m.commands, CommandId),
      UnionBy(acc.iceworksApp + m.iceworksApp, ViewId),
      FoldEvents(acc.activationEvents, m.activationEvents),
      acc.dependencies[DependencyKey(cfg, m.name) := DependencyValue(cfg, m.version)],
      acc.kaitianContributes + (m.kaitianContributes - EntryOverrides))
  }

  /** The fold over the extension manifests in the given order. */
  function FoldAll(cfg: Config, acc: PackManifest, ms: seq<Manifest>): (r: PackManifest)
    ensures Wellformed(acc) ==> Wellformed(r)
    decreases |ms|
  {
    if |ms| == 0 then acc else FoldOne(cfg, FoldAll(cfg, acc, ms[..|ms| - 1]), ms[|ms| - 1])
  }

  /** Folding the same manifest twice equals folding it once. */
  lemma FoldOneIdempotent(cfg: Config, acc: PackManifest, m: Manifest)
    ensures FoldOne(cfg, FoldOne(cfg, acc, m), m) == FoldOne(cfg, acc, m)
  {
    var once := FoldOne(cfg, acc, m);
    UnionFoldTwice(acc.commands, m.commands, CommandId);
    UnionFoldTwice(acc.iceworksApp, m.iceworksApp, ViewId);
    UnionFoldTwice(acc.activationEvents, DeclaredEvents(m), Id);
    var stripped := m.kaitianContributes - EntryOverrides;
    assert once.kaitianContributes + stripped == once.kaitianContributes;
  }

  /** One field's contributions of all manifests, concatenated in fold order. */
  function Contributions<T>(ms: seq<Manifest>, field: Manifest -> seq<T>): seq<T>
    decreases |ms|
  {
    if |ms| == 0 then [] else Contributions(ms[..|ms| - 1], field) + field(ms[|ms| - 1])
  }

  function CommandsField(m: Manifest): seq<Command> { m.commands }

  function ViewsField(m: Manifest): seq<AppView> { m.iceworksApp }

  /** Folding step by step equals one `unionBy` over every manifest's entries, so the
      accumulated lists keep the first occurrence of each key, in first-seen order. */
  lemma {:induction false} FoldAllIsOneUnion(cfg: Config, ms: seq<Manifest>)
    ensures FoldAll(cfg, EmptyPack, ms).commands == UnionBy(Contributions(ms, CommandsField), CommandId)
    ensures FoldAll(cfg, EmptyPack, ms).iceworksApp == UnionBy(Contributions(ms, ViewsField), ViewId)
    ensures FoldAll(cfg, EmptyPack, ms).activationEvents == UnionBy(Contributions(ms, DeclaredEvents), Id)
    decreases |ms|
  {
    if |ms| > 0 {
      var init := ms[..|ms| - 1];
      var m := ms[|ms| - 1];
      FoldAllIsOneUnion(cfg, init);
      UnionAssociates(Contributions(init, CommandsField), m.commands, CommandId);
      UnionAssociates(Contributions(init, ViewsField), m.iceworksApp, ViewId);
      UnionAssociates(Contributions(init, DeclaredEvents), DeclaredEvents(m), Id);
    } else {
      assert UnionBy<Command, string>([], CommandId) == [];
    }
  }

  /** The command kept for each id is the first command with that id in fold order, and
      ids appear in the order they were first seen. */
  lemma FoldAllCommandsFirstWins(cfg: Config, ms: seq<Manifest>)
    ensures var all := Contributions(ms, CommandsField);
      var r := FoldAll(cfg, EmptyPack, ms).commands;
      && KeysOf(r, CommandId) == KeysOf(all, CommandId)
      && (forall i :: 0 <= i < |r| ==> r[i].command in KeysOf(all, CommandId) && r[i] == all[FirstIndex(all, CommandId, r[i].command)])
      && (forall i, j :: 0 <= i < j < |r| ==>
            r[i].command in KeysOf(all, CommandId) && r[j].command in KeysOf(all, CommandId) &&
            FirstIndex(all, CommandId, r[i].command) < FirstIndex(all, CommandId, r[j].command))
  {
    var all := Contributions(ms, CommandsField);
    FoldAllIsOneUnion(cfg, ms);
    UnionKeepsFirst(all, CommandId);
    UnionFirstSeenOrder(all, CommandId);
  }

  /** The view kept for each id is the first view with that id in fold order, and ids
      appear in the order they were first seen. */
  lemma FoldAllViewsFirstWins(cfg: Config, ms: seq<Manifest>)
    ensures var all := Contributions(ms, ViewsField);
      var r := FoldAll(cfg, EmptyPack, ms).iceworksApp;
      && KeysOf(r, ViewId) == KeysOf(all, ViewId)
      && (forall i :: 0 <= i < |r| ==> r[i].id in KeysOf(all, ViewId) && r[i] == all[FirstIndex(all, ViewId, r[i].id)])
      && (forall i, j :: 0 <= i < j < |r| ==>
            r[i].id in KeysOf(all, ViewId) && r[j].id in KeysOf(all, ViewId) &&
            FirstIndex(all, ViewId, r[i].id) < FirstIndex(all, ViewId, r[j].id))
  {
    var all := Contributions(ms, ViewsField);
    FoldAllIsOneUnion(cfg, ms);
    UnionKeepsFirst(all, ViewId);
    UnionFirstSeenOrder(all, ViewId);
  }

  /** The accumulated activation events hold every declared event exactly once, in the
      order each was first declared. */
  lemma FoldAllEventsDistinct(cfg: Config, ms: seq<Manifest>)
    ensures var all := Contributions(ms, DeclaredEvents);
      var r := FoldAll(cfg, EmptyPack, ms).activationEvents;
      && UniqueBy(r, Id)
      && (forall e :: e in all <==> e in r)
      && (forall i, j :: 0 <= i < j < |r| ==>
            r[i] in KeysOf(all, Id) && r[j] in KeysOf(all, Id) && FirstIndex(all, Id, r[i]) < FirstIndex(all, Id, r[j]))
  {
    var all := Contributions(ms, DeclaredEvents);
    var r := FoldAll(cfg, EmptyPack, ms).activationEvents;
    FoldAllIsOneUnion(cfg, ms);
    UnionFirstSeenOrder(all, Id);
    forall e ensures e in all <==> e in r {
      KeysOfId(all, e);
      KeysOfId(r, e);
    }
  }

  /** The dependency names of the given extensions. */
  function DependencyNames(cfg: Config, ms: seq<Manifest>): set<string>
    decreases |ms|
  {
    if |ms| == 0 then {} else DependencyNames(cfg, ms[..|ms| - 1]) + {DependencyKey(cfg, ms[|ms| - 1].name)}
  }

  /** Every folded extension has a dependency entry, and nothing else does. */
  lemma {:induction false} FoldAllDependencyNames(cfg: Config, ms: seq<Manifest>)
    ensures FoldAll(cfg, EmptyPack, ms).dependencies.Keys == DependencyNames(cfg, ms)
    decreases |ms|
  {
    if |ms| > 0 {
      FoldAllDependencyNames(cfg, ms[..|ms| - 1]);
    }
  }

  /** Each dependency entry holds the value of the last extension folded under that name. */
  lemma {:induction false} FoldAllDependencyLastWins(cfg: Config, ms: seq<Manifest>, i: nat)
    requires i < |ms|
    requires forall j :: i < j < |ms| ==> DependencyKey(cfg, ms[j].name) != DependencyKey(cfg, ms[i].name)
    ensures DependencyKey(cfg, ms[i].name) in FoldAll(cfg, EmptyPack, ms).dependencies
    ensures FoldAll(cfg, EmptyPack, ms).dependencies[DependencyKey(cfg, ms[i].name)] == DependencyValue(cfg, ms[i].version)
    decreases |ms|
  {
    var init := ms[..|ms| - 1];
    if i < |ms| - 1 {
      assert init[i] == ms[i];
      assert DependencyKey(cfg, ms[|ms| - 1].name) != DependencyKey(cfg, ms[i].name);
      FoldAllDependencyLastWins(cfg, init, i);
    }
  }

  /** In beta mode every dependency is the wildcard range. */
  lemma {:induction false} FoldAllBetaIsWildcard(cfg: Config, ms: seq<Manifest>)
    requires cfg.isBeta
    ensures forall k :: k in FoldAll(cfg, EmptyPack, ms).dependencies ==> FoldAll(cfg, EmptyPack, ms).dependencies[k] == "*"
    decreases |ms|
  {
    if |ms| > 0 {
      FoldAllBetaIsWildcard(cfg, ms[..|ms| - 1]);
    }
  }

  /** The entry overrides never reach the pack, whatever the extensions declare. */
  lemma FoldAllDropsEntryOverrides(cfg: Config, ms: seq<Manifest>)
    ensures EntryOverrides !! FoldAll(cfg, EmptyPack, ms).kaitianContributes.Keys
    ensures "nodeMain" !in FoldAll(cfg, EmptyPack, ms).kaitianContributes
  {
    assert UniqueBy<Command, string>([], CommandId);
  }
}

=== FILE: pack_model.dfy ===
/** The data the pack script (scripts/o2/general-pack.ts) works on: its configuration,
    the extension descriptors it passes between stages, and the manifest fields it reads
    and writes. */
module PackModel {
  import opened Wrappers
  import opened Strs

  /** The script's static configuration (`isBeta`, `pushExtension2NPM`, `npmRegistry`). */
  datatype Config = Config(isBeta: bool, pushExtension2NPM: bool, npmRegistry: string)

  /** One extension to fold into the pack: an allow-list entry, a published record, or a
      fetched "other" extension. */
  datatype ExtensionDescriptor = ExtensionDescriptor(
    extensionName: string,
    packageName: string,
    isOther: bool,
    assetsFolders: seq<string>,
    isActiveNode: bool,
    isActiveBrowser: bool)

  /** A `contributes.commands` entry; lodash `unionBy` keys it by `command`. */
  datatype Command = Command(command: string, title: string)

  /** A `contributes.views.iceworksApp` entry; keyed by `id`. */
  datatype AppView = AppView(id: string, name: string)

  function CommandId(c: Command): string { c.command }

  function ViewId(v: AppView): string { v.id }

  /** The fields of an extension's `package.json` that the script reads or rewrites.
      Absent `commands` and `iceworksApp` default to `[]`, an absent `kaitianContributes`
      to `{}`; `activationEvents` has no default, so its absence is kept. */
  datatype Manifest = Manifest(
    name: string,
    publisher: string,
    version: string,
    publishConfig: map<string, string>,
    commands: seq<Command>,
    iceworksApp: seq<AppView>,
    activationEvents: Option<seq<string>>,
    kaitianContributes: map<string, string>)

  const StablePrefix: string := "@iceworks/extension"
  const BetaPrefix: string := "@ali/ide-extensions"

  /** `EXTENSION_NPM_NAME_PREFIX`. */
  function NpmPrefix(isBeta: bool): string {
    if isBeta then BetaPrefix else StablePrefix
  }

  /** `getExtensionNpmName(name)`: the registry name of an extension. */
  function NpmName(isBeta: bool, name: string): (r: string)
    ensures StartsWith(r, NpmPrefix(isBeta) + "-")
    ensures |r| == |NpmPrefix(isBeta)| + 1 + |name|
    ensures r[|NpmPrefix(isBeta)| + 1..] == name
  {
    NpmPrefix(isBeta) + "-" + name
  }

  /** Different extension names never share a registry name, and the stable and beta
      registry names never coincide. */
  lemma NpmNameInjective(b1: bool, n1: string, b2: bool, n2: string)
    requires NpmName(b1, n1) == NpmName(b2, n2)
    ensures b1 == b2 && n1 == n2
  {
    var r := NpmName(b1, n1);
    assert r[1] == NpmPrefix(b1)[1] && r[1] == NpmPrefix(b2)[1];
  }
}

=== FILE: pack_source.dfy ===
/** The extension pack's generated entry source and its final `package.json` touch-up
    (scripts/o2/general-pack.ts, lines 219-266). The template engine and `camelCase` are
    outside this model: both are parameters. */
module PackSource {
  import opened Seqs
  import opened Strs
  import opened PackModel

  // ---------------------------------------------------------------------------
  // the records handed to the templates

  /** One entry of the `packages` list the templates are rendered with. */
  datatype PackageEntry = PackageEntry(
    packageName: string,
    isActiveNode: bool,
    isActiveBrowser: bool,
    activateFunc: string,
    deactivateFunc: string,
    activateNodeFunc: string,
    deactivateNodeFunc: string)

  const ActiveSuffix: string := "Active"
  const DeactivateSuffix: string := "Deactivate"
  const NodeActiveSuffix: string := "NodeActive"
  const NodeDeactivateSuffix: string := "NodeDeactivate"

  /** The template record of one extension; `camel` is the identifier-making function. */
  function EntryOf(camel: string -> string, e: ExtensionDescriptor): (r: PackageEntry)
    ensures r.packageName == e.packageName
    ensures r.isActiveNode == e.isActiveNode && r.isActiveBrowser == e.isActiveBrowser
    ensures r.activateFunc == camel(e.packageName) + ActiveSuffix
    ensures r.deactivateFunc == camel(e.packageName) + DeactivateSuffix
    ensures r.activateNodeFunc == camel(e.packageName) + NodeActiveSuffix
    ensures r.deactivateNodeFunc == camel(e.packageName) + NodeDeactivateSuffix
    // the four symbols share the identifier of the package and never coincide
    ensures StartsWith(r.activateFunc, camel(e.packageName)) && StartsWith(r.deactivateFunc, camel(e.packageName))
    ensures StartsWith(r.activateNodeFunc, camel(e.packageName)) && StartsWith(r.deactivateNodeFunc, camel(e.packageName))
    ensures r.activateFunc != r.deactivateFunc && r.activateFunc != r.activateNodeFunc
    ensures r.activateFunc != r.deactivateNodeFunc && r.deactivateFunc != r.activateNodeFunc
    ensures r.deactivateFunc != r.deactivateNodeFunc && r.activateNodeFunc != r.deactivateNodeFunc
  {
    var f := camel(e.packageName);
    var r := PackageEntry(e.packageName, e.isActiveNode, e.isActiveBrowser,
      f + ActiveSuffix, f + DeactivateSuffix, f + NodeActiveSuffix, f + NodeDeactivateSuffix);
    assert r.activateFunc[|f|] == 'A' && r.deactivateFunc[|f|] == 'D' && r.activateNodeFunc[|f|] == 'N';
    assert r.activateNodeFunc[|f| + 4] == 'A' && r.deactivateNodeFunc[|f| + 4] == 'D';
    r
  }

  /** `extensions.map(...)`: one record per extension, in order. */
  function Entries(camel: string -> string, exts: seq<ExtensionDescriptor>): (r: seq<PackageEntry>)
    ensures |r| == |exts|
    ensures forall i :: 0 <= i < |exts| ==> r[i] == EntryOf(camel, exts[i])
  {
    seq(|exts|, i requires 0 <= i < |exts| => EntryOf(camel, exts[i]))
  }

  lemma SuffixCancel(a: string, b: string, s: string)
    requires a + s == b + s
    ensures a == b
  {
    assert a == (a + s)[..|a|];
    assert b == (b + s)[..|b|];
  }

  /** Two packages get the same activation symbol exactly when their identifiers agree. */
  lemma ActivateClash(camel: string -> string, a: ExtensionDescriptor, b: ExtensionDescriptor)
    ensures EntryOf(camel, a).activateFunc == EntryOf(camel, b).activateFunc <==> camel(a.packageName) == camel(b.packageName)
  {
    var x, y := camel(a.packageName), camel(b.packageName);
    if x + ActiveSuffix == y + ActiveSuffix {
      SuffixCancel(x, y, ActiveSuffix);
    }
  }

  /** One package's activation symbol is another's node activation symbol exactly when its
      identifier is the other's followed by `Node`, as with `foo-node` next to `foo`. */
  lemma ActivateMeetsNodeActivate(camel: string -> string, a: ExtensionDescriptor, b: ExtensionDescriptor)
    ensures EntryOf(camel, a).activateFunc == EntryOf(camel, b).activateNodeFunc <==>
            camel(a.packageName) == camel(b.packageName) + "Node"
  {
    var x, y := camel(a.packageName), camel(b.packageName);
    assert y + NodeActiveSuffix == (y + "Node") + ActiveSuffix;
    if x + ActiveSuffix == y + NodeActiveSuffix {
      SuffixCancel(x, y + "Node", ActiveSuffix);
    }
  }

  // ---------------------------------------------------------------------------
  // rendering the `.ejs` templates

  const TemplateExt: string := ".ejs"

  /** `basename(path)`: what follows the last `/`. */
  function Basename(path: string): (r: string)
    ensures |r| <= |path| && r == path[|path| - |r|..]
    ensures forall i :: 0 <= i < |r| ==> r[i] != '/'
    ensures |r| < |path| ==> path[|path| - |r| - 1] == '/'
    decreases |path|
  {
    if |path| == 0 then ""
    else if path[|path| - 1] == '/' then ""
    else Basename(path[..|path| - 1]) + [path[|path| - 1]]
  }

  /** `/\.ejs$/.test(basename(path))`. */
  predicate IsTemplate(path: string) {
    EndsWith(Basename(path), TemplateExt)
  }

  /** Testing the base name is testing the path: `.ejs` holds no `/`. */
  lemma IsTemplateOfPath(path: string)
    ensures IsTemplate(path) <==> EndsWith(path, TemplateExt)
  {
    var b := Basename(path);
    if EndsWith(path, TemplateExt) {
      assert path[|path| - 4..] == ".ejs";
      assert b[|b| - 4..] == path[|path| - 4..];
    }
    if IsTemplate(path) {
      assert b[|b| - 4..] == path[|path| - 4..];
    }
  }

  /** Where a template is rendered to (line 260): its own path without the `.ejs`
      extension. */
  function RenderedPath(path: string): (r: string)
    requires EndsWith(path, TemplateExt)
    ensures r + TemplateExt == path
  {
    path[..|path| - |TemplateExt|]
  }

  /** Different templates render to different files. */
  lemma RenderedPathInjective(p: string, q: string)
    requires EndsWith(p, TemplateExt) && EndsWith(q, TemplateExt)
    requires RenderedPath(p) == RenderedPath(q)
    ensures p == q
  {
  }

  /** The source directory of the pack as path to content. */
  type SourceTree = map<string, string>

  /** Some segment of the path starts with `.`. */
  predicate HiddenSegment(path: string) {
    exists i :: 0 <= i < |path| && path[i] == '.' && (i == 0 || path[i - 1] == '/')
  }

  /** The listing of lines 239-242 runs `**` without the `dot` option, so it yields only
      the paths none of whose segments starts with `.`. */
  predicate Listed(path: string) {
    !HiddenSegment(path)
  }

  /** A path with a hidden segment keeps it whatever is appended. */
  lemma HiddenExtends(path: string, suffix: string)
    requires HiddenSegment(path)
    ensures HiddenSegment(path + suffix)
  {
    var i :| 0 <= i < |path| && path[i] == '.' && (i == 0 || path[i - 1] == '/');
    assert (path + suffix)[i] == path[i];
    if i > 0 {
      assert (path + suffix)[i - 1] == path[i - 1];
    }
  }

  /** A file the listing yields and whose name ends in `.ejs`: the files lines 255-264
      render. */
  predicate IsRendered(path: string) {
    EndsWith(path, TemplateExt) && Listed(path)
  }

  /** The source directory after rendering: every listed template is replaced by its
      rendering under the name without `.ejs`; every other file, a template under a hidden
      segment included, stays. A template whose rendered name is itself another template's
      name (`a.ejs` beside `a.ejs.ejs`) keeps the rendering. */
  function RenderSource(tree: SourceTree, render: (string, seq<PackageEntry>) -> string, packages: seq<PackageEntry>): (r: SourceTree)
    // every listed template's rendering sits at its rendered path
    ensures forall p :: p in tree && IsRendered(p) ==>
      RenderedPath(p) in r && r[RenderedPath(p)] == render(tree[p], packages)
    // every other file is kept as it was, unless a listed template renders over it
    ensures forall p :: p in tree && !IsRendered(p) && !(p + TemplateExt in tree && IsRendered(p + TemplateExt)) ==>
      p in r && r[p] == tree[p]
    // a template under a hidden segment is never listed, so it stays as it is
    ensures forall p :: p in tree && EndsWith(p, TemplateExt) && HiddenSegment(p) ==> p in r && r[p] == tree[p]
    // nothing else appears and the listed templates themselves are gone
    ensures forall p :: p in r ==> (p in tree && !IsRendered(p)) || (p + TemplateExt in tree && IsRendered(p + TemplateExt))
  {
    var kept := map p | p in tree && !IsRendered(p) :: tree[p];
    var rendered := map p | p in tree && IsRendered(p) :: RenderedPath(p) := render(tree[p], packages);
    var r := kept + rendered;
    forall p | p in r ensures (p in tree && !IsRendered(p)) || (p + TemplateExt in tree && IsRendered(p + TemplateExt)) {
      if p !in kept {
        var q :| q in tree && IsRendered(q) && RenderedPath(q) == p;
      }
    }
    forall p | p in tree && EndsWith(p, TemplateExt) && HiddenSegment(p) ensures p !in rendered {
      HiddenExtends(p, TemplateExt);
    }
    r
  }

  /** Rendering again renders nothing more once no listed template is left. */
  lemma RenderWithoutTemplates(tree: SourceTree, render: (string, seq<PackageEntry>) -> string, packages: seq<PackageEntry>)
    requires forall p :: p in tree ==> !IsRendered(p)
    ensures RenderSource(tree, render, packages) == tree
  {
  }

  // ---------------------------------------------------------------------------
  // customPackPackageJSON

  const ExtensionPackKey: string := "extensionPack"

  /** The pack manifest after the template's values are merged in and `extensionPack` is
      deleted; top-level values only. */
  function Customize(pack: map<string, string>, template: map<string, string>): (r: map<string, string>)
    ensures r.Keys == (pack.Keys + template.Keys) - {ExtensionPackKey}
    ensures forall k :: k in template && k != ExtensionPackKey ==> r[k] == template[k]
    ensures forall k :: k in pack && k !in template && k != ExtensionPackKey ==> r[k] == pack[k]
  {
    (pack + template) - {ExtensionPackKey}
  }

  /** Running the touch-up again changes nothing. */
  lemma CustomizeIdempotent(pack: map<string, string>, template: map<string, string>)
    ensures Customize(Customize(pack, template), template) == Customize(pack, template)
  {
  }
}

=== FILE: pipeline.dfy ===
/** How the stages of `generalPack` (scripts/o2/general-pack.ts, lines 280-287) fit
    together: the extensions folded into the pack are the published records followed by
    the fetched ones, and a published extension's manifest is read back after the
    publisher has rewritten it. */
module Pipeline {
  import opened Strs
  import opened Version
  import opened PackModel
  import opened Publisher
  import opened ManifestMerger

  /** The published records followed by the fetched extensions (line 283). */
  function AllExtensions(published: seq<ExtensionDescriptor>, others: seq<ExtensionDescriptor>): (r: seq<ExtensionDescriptor>)
    ensures |r| == |published| + |others|
    ensures r[..|published|] == published && r[|published|..] == others
  {
    published + others
  }

  /** Whatever the flags, a published extension enters the extension pack's dependencies under its
      registry name: when publishing, the manifest read back already carries that name;
      otherwise the fold prefixes the local name itself. When publishing a stable pack,
      the dependency is on exactly the version just published. */
  lemma DependencyOnPublished(cfg: Config, allow: seq<ExtensionDescriptor>, l: LocalExtension, latest: map<string, string>)
    requires IsPublishable(allow, l)
    requires cfg.pushExtension2NPM ==> Bumpable(BaseVersion(cfg.isBeta, l.manifest, latest))
    ensures var m := AfterPublish(cfg, allow, l, latest).manifest;
      DependencyKey(cfg, m.name) == NpmName(cfg.isBeta, l.manifest.name)
    ensures var m := AfterPublish(cfg, allow, l, latest).manifest;
      cfg.pushExtension2NPM && !cfg.isBeta ==>
        DigitsAndDots(DependencyValue(cfg, m.version)) &&
        ConcatValue(DependencyValue(cfg, m.version)) == ConcatValue(BaseVersion(cfg.isBeta, l.manifest, latest)) + 1
  {
  }

  /** The registry name of a published record is the one its dependency is keyed by. */
  lemma RecordNameIsDependencyKey(cfg: Config, allow: seq<ExtensionDescriptor>, l: LocalExtension, latest: map<string, string>)
    requires IsPublishable(allow, l)
    requires cfg.pushExtension2NPM ==> Bumpable(BaseVersion(cfg.isBeta, l.manifest, latest))
    ensures RecordOf(cfg.isBeta, allow, l).packageName == DependencyKey(cfg, AfterPublish(cfg, allow, l, latest).manifest.name)
  {
    DependencyOnPublished(cfg, allow, l, latest);
  }
}

=== FILE: publisher.dfy ===
/** The data logic of `publishExtensionsToNpm` (scripts/o2/general-pack.ts, lines 49-93):
    which local extensions are published, the manifest each one is rewritten to, and the
    record each one contributes to the pack. The registry lookup and the `npm publish`
    process become inputs and outputs. */
module Publisher {
  import opened Wrappers
  import opened Seqs
  import opened Strs
  import opened Version
  import opened PackModel

  /** A local extension: its directory name under `extensions/` and its manifest. */
  datatype LocalExtension = LocalExtension(extensionName: string, manifest: Manifest)

  /** What the publisher leaves behind: the records it returns, the local extensions as
      they are on disk afterwards, and the directories in which it ran `npm publish`. */
  datatype PublishResult = PublishResult(
    records: seq<ExtensionDescriptor>,
    locals: seq<LocalExtension>,
    publishedDirs: seq<string>)

  /** The allow-list key of a manifest, `${publisher}.${name}`. */
  function AllowKey(m: Manifest): string {
    m.publisher + "." + m.name
  }

  /** The first allow-list entry whose package name is `key` (line 58), if any. */
  function FindAllowed(allow: seq<ExtensionDescriptor>, key: string): (r: Option<ExtensionDescriptor>)
    ensures r.None? <==> forall i :: 0 <= i < |allow| ==> allow[i].packageName != key
    ensures r.Some? ==> exists i :: 0 <= i < |allow| && allow[i] == r.value && allow[i].packageName == key
                                   && forall j :: 0 <= j < i ==> allow[j].packageName != key
    decreases |allow|
  {
    if |allow| == 0 then None
    else if allow[0].packageName == key then Some(allow[0])
    else
      var r := FindAllowed(allow[1..], key);
      if r.Some? then
        var i :| 0 <= i < |allow[1..]| && allow[1..][i] == r.value && allow[1..][i].packageName == key
                 && forall j :: 0 <= j < i ==> allow[1..][j].packageName != key;
        assert allow[i + 1] == r.value;
        r
      else r
  }

  predicate IsPublishable(allow: seq<ExtensionDescriptor>, l: LocalExtension) {
    FindAllowed(allow, AllowKey(l.manifest)).Some?
  }

  /** Every extension of `s` is on the allow-list. */
  predicate AllPublishable(allow: seq<ExtensionDescriptor>, s: seq<LocalExtension>) {
    forall i :: 0 <= i < |s| ==> IsPublishable(allow, s[i])
  }

  /** `find` as a predicate value, for `Filter`. */
  function Publishable(allow: seq<ExtensionDescriptor>): LocalExtension -> bool {
    l => IsPublishable(allow, l)
  }

  /** The record returned for a publishable extension (lines 84-88): its first allow-list
      entry with the directory name and the registry name filled in. */
  function RecordOf(isBeta: bool, allow: seq<ExtensionDescriptor>, l: LocalExtension): (r: ExtensionDescriptor)
    requires IsPublishable(allow, l)
    ensures r.extensionName == l.extensionName
    ensures r.packageName == NpmName(isBeta, l.manifest.name)
    ensures var entry := FindAllowed(allow, AllowKey(l.manifest)).value;
      entry in allow && entry.packageName == AllowKey(l.manifest) &&
      r.isOther == entry.isOther && r.assetsFolders == entry.assetsFolders &&
      r.isActiveNode == entry.isActiveNode && r.isActiveBrowser == entry.isActiveBrowser
  {
    FindAllowed(allow, AllowKey(l.manifest)).value.(
      extensionName := l.extensionName,
      packageName := NpmName(isBeta, l.manifest.name))
  }

  /** The publishable extensions, in scan order. */
  function Selected(allow: seq<ExtensionDescriptor>, locals: seq<LocalExtension>): (r: seq<LocalExtension>)
    ensures forall i :: 0 <= i < |r| ==> IsPublishable(allow, r[i]) && r[i] in locals
    ensures AllPublishable(allow, r)
  {
    Filter(Publishable(allow), locals)
  }

  /** The record of each selected extension, in order. */
  function RecordsOf(isBeta: bool, allow: seq<ExtensionDescriptor>, sel: seq<LocalExtension>): (r: seq<ExtensionDescriptor>)
    requires AllPublishable(allow, sel)
    ensures |r| == |sel|
    ensures forall i :: 0 <= i < |sel| ==> r[i] == RecordOf(isBeta, allow, sel[i])
  {
    seq(|sel|, i requires 0 <= i < |sel| => RecordOf(isBeta, allow, sel[i]))
  }

  /** The records `publishExtensionsToNpm` returns, in scan order. */
  function SelectPublishable(isBeta: bool, allow: seq<ExtensionDescriptor>, locals: seq<LocalExtension>): (r: seq<ExtensionDescriptor>)
    ensures |r| <= |locals|
  {
    RecordsOf(isBeta, allow, Selected(allow, locals))
  }

  /** Every allow-listed extension has its record among those returned. */
  lemma SelectPublishableComplete(isBeta: bool, allow: seq<ExtensionDescriptor>, locals: seq<LocalExtension>, l: LocalExtension)
    requires l in locals && IsPublishable(allow, l)
    ensures RecordOf(isBeta, allow, l) in SelectPublishable(isBeta, allow, locals)
  {
    var sel := Selected(allow, locals);
    var j :| 0 <= j < |locals| && locals[j] == l;
    assert Publishable(allow)(locals[j]);
    var i :| 0 <= i < |sel| && sel[i] == l;
    assert SelectPublishable(isBeta, allow, locals)[i] == RecordOf(isBeta, allow, l);
  }

  /** Every record returned is the record of an allow-listed extension. */
  lemma SelectPublishableSound(isBeta: bool, allow: seq<ExtensionDescriptor>, locals: seq<LocalExtension>, i: nat)
    requires i < |SelectPublishable(isBeta, allow, locals)|
    ensures exists l :: l in locals && IsPublishable(allow, l) && SelectPublishable(isBeta, allow, locals)[i] == RecordOf(isBeta, allow, l)
  {
    var sel := Selected(allow, locals);
    assert sel[i] in locals && IsPublishable(allow, sel[i]);
  }

  lemma AppendPublishable(allow: seq<ExtensionDescriptor>, s1: seq<LocalExtension>, s2: seq<LocalExtension>)
    requires AllPublishable(allow, s1)
    requires AllPublishable(allow, s2)
    ensures AllPublishable(allow, s1 + s2)
  {
    var s := s1 + s2;
    forall i | 0 <= i < |s| ensures IsPublishable(allow, s[i]) {
      if i < |s1| {
        assert s[i] == s1[i];
      } else {
        assert s[i] == s2[i - |s1|];
      }
    }
  }

  lemma RecordsPrefix(isBeta: bool, allow: seq<ExtensionDescriptor>, s1: seq<LocalExtension>, s2: seq<LocalExtension>)
    requires AllPublishable(allow, s1 + s2)
    requires AllPublishable(allow, s1)
    ensures RecordsOf(isBeta, allow, s1 + s2)[..|s1|] == RecordsOf(isBeta, allow, s1)
  {
    var r, r1 := RecordsOf(isBeta, allow, s1 + s2), RecordsOf(isBeta, allow, s1);
    forall i | 0 <= i < |s1| ensures r[i] == r1[i] {
      assert (s1 + s2)[i] == s1[i];
    }
  }

  lemma RecordsSuffix(isBeta: bool, allow: seq<ExtensionDescriptor>, s1: seq<LocalExtension>, s2: seq<LocalExtension>)
    requires AllPublishable(allow, s1 + s2)
    requires AllPublishable(allow, s2)
    ensures RecordsOf(isBeta, allow, s1 + s2)[|s1|..] == RecordsOf(isBeta, allow, s2)
  {
    var r, r2 := RecordsOf(isBeta, allow, s1 + s2), RecordsOf(isBeta, allow, s2);
    forall i | 0 <= i < |s2| ensures r[|s1| + i] == r2[i] {
      assert (s1 + s2)[|s1| + i] == s2[i];
    }
  }

  lemma RecordsAppend(isBeta: bool, allow: seq<ExtensionDescriptor>, s1: seq<LocalExtension>, s2: seq<LocalExtension>)
    requires AllPublishable(allow, s1)
    requires AllPublishable(allow, s2)
    ensures AllPublishable(allow, s1 + s2)
    ensures RecordsOf(isBeta, allow, s1 + s2) == RecordsOf(isBeta, allow, s1) + RecordsOf(isBeta, allow, s2)
  {
    AppendPublishable(allow, s1, s2);
    RecordsPrefix(isBeta, allow, s1, s2);
    RecordsSuffix(isBeta, allow, s1, s2);
    SplitAt(RecordsOf(isBeta, allow, s1 + s2), |s1|);
  }

  /** Selection keeps scan order: it distributes over concatenation. */
  lemma SelectAppend(isBeta: bool, allow: seq<ExtensionDescriptor>, a: seq<LocalExtension>, b: seq<LocalExtension>)
    ensures SelectPublishable(isBeta, allow, a + b) == SelectPublishable(isBeta, allow, a) + SelectPublishable(isBeta, allow, b)
  {
    var sa, sb := Selected(allow, a), Selected(allow, b);
    FilterAppend(Publishable(allow), a, b);
    RecordsAppend(isBeta, allow, sa, sb);
  }

  /** The version the bump starts from: the registry's latest version of the registry
      name, or the local version when the lookup fails (`latest` has no entry). */
  function BaseVersion(isBeta: bool, m: Manifest, latest: map<string, string>): (r: string)
    // the registry's answer for the registry name wins whenever there is one
    ensures NpmName(isBeta, m.name) in latest ==> r == latest[NpmName(isBeta, m.name)]
    ensures NpmName(isBeta, m.name) !in latest ==> r == m.version
  {
    var newName := NpmName(isBeta, m.name);
    if newName in latest then latest[newName] else m.version
  }

  /** The `publishConfig` appended before publishing. */
  function PublishConfigValues(cfg: Config): map<string, string> {
    if cfg.isBeta then map["registry" := cfg.npmRegistry] else map["access" := "public"]
  }

  /** `publishConfig` after the channel's values are appended: existing keys survive,
      and the channel's own key carries the channel's value. */
  function MergePublishConfig(existing: map<string, string>, cfg: Config): (r: map<string, string>)
    ensures r.Keys == existing.Keys + PublishConfigValues(cfg).Keys
    ensures forall k :: k in existing && k !in PublishConfigValues(cfg) ==> r[k] == existing[k]
    ensures cfg.isBeta ==> r["registry"] == cfg.npmRegistry
    ensures !cfg.isBeta ==> r["access"] == "public"
  {
    existing + PublishConfigValues(cfg)
  }

  /** The manifest written back before `npm publish` (lines 63-75). */
  function RewriteForPublish(cfg: Config, m: Manifest, latest: map<string, string>): (r: Manifest)
    requires Bumpable(BaseVersion(cfg.isBeta, m, latest))
    ensures r.name == NpmName(cfg.isBeta, m.name)
    ensures Bumpable(r.version)
    ensures ConcatValue(r.version) == ConcatValue(BaseVersion(cfg.isBeta, m, latest)) + 1
    ensures r.version == NextVersion(BaseVersion(cfg.isBeta, m, latest))
    ensures r.publishConfig.Keys == m.publishConfig.Keys + PublishConfigValues(cfg).Keys
    ensures forall k :: k in m.publishConfig && k !in PublishConfigValues(cfg) ==> r.publishConfig[k] == m.publishConfig[k]
    ensures cfg.isBeta ==> r.publishConfig["registry"] == cfg.npmRegistry
    ensures !cfg.isBeta ==> r.publishConfig["access"] == "public"
    ensures r.(name := m.name, version := m.version, publishConfig := m.publishConfig) == m
  {
    var base := BaseVersion(cfg.isBeta, m, latest);
    NextVersionBumpable(base);
    m.(name := NpmName(cfg.isBeta, m.name), version := NextVersion(base), publishConfig := MergePublishConfig(m.publishConfig, cfg))
  }

  /** What the caller must supply: every version the bump will read has all-digit
      components. */
  predicate VersionsBumpable(cfg: Config, allow: seq<ExtensionDescriptor>, locals: seq<LocalExtension>, latest: map<string, string>) {
    cfg.pushExtension2NPM ==>
      forall i :: 0 <= i < |locals| && IsPublishable(allow, locals[i]) ==>
        Bumpable(BaseVersion(cfg.isBeta, locals[i].manifest, latest))
  }

  /** One extension's manifest after the publisher has run. */
  function AfterPublish(cfg: Config, allow: seq<ExtensionDescriptor>, l: LocalExtension, latest: map<string, string>): (r: LocalExtension)
    requires cfg.pushExtension2NPM && IsPublishable(allow, l) ==> Bumpable(BaseVersion(cfg.isBeta, l.manifest, latest))
    ensures r.extensionName == l.extensionName
    ensures !(cfg.pushExtension2NPM && IsPublishable(allow, l)) ==> r == l
    // an allow-listed extension gets the publishing rewrite of its manifest and nothing else
    ensures cfg.pushExtension2NPM && IsPublishable(allow, l) ==>
      r.manifest == RewriteForPublish(cfg, l.manifest, latest) && r.(manifest := l.manifest) == l
  {
    if cfg.pushExtension2NPM && IsPublishable(allow, l)
    then l.(manifest := RewriteForPublish(cfg, l.manifest, latest))
    else l
  }

  /** The local extensions after the publisher has run, in scan order. */
  function AfterPublishAll(cfg: Config, allow: seq<ExtensionDescriptor>, locals: seq<LocalExtension>, latest: map<string, string>): (r: seq<LocalExtension>)
    requires VersionsBumpable(cfg, allow, locals, latest)
    ensures |r| == |locals|
    ensures forall i :: 0 <= i < |locals| ==> r[i] == AfterPublish(cfg, allow, locals[i], latest)
  {
    seq(|locals|, i requires 0 <= i < |locals| => AfterPublish(cfg, allow, locals[i], latest))
  }

  /** The directory of each selected extension, in order. */
  function ExtensionNames(sel: seq<LocalExtension>): (r: seq<string>)
    ensures |r| == |sel|
    ensures forall i :: 0 <= i < |sel| ==> r[i] == sel[i].extensionName
  {
    seq(|sel|, i requires 0 <= i < |sel| => sel[i].extensionName)
  }

  /** Each record names the directory of the extension it was made from. */
  lemma RecordNames(isBeta: bool, allow: seq<ExtensionDescriptor>, locals: seq<LocalExtension>)
    ensures |SelectPublishable(isBeta, allow, locals)| == |Selected(allow, locals)|
    ensures forall i :: 0 <= i < |Selected(allow, locals)| ==>
      SelectPublishable(isBeta, allow, locals)[i].extensionName == Selected(allow, locals)[i].extensionName
  {
    var sel := Selected(allow, locals);
    assert SelectPublishable(isBeta, allow, locals) == RecordsOf(isBeta, allow, sel);
  }

  /** With publishing disabled no manifest is rewritten. */
  lemma DisabledLeavesLocals(cfg: Config, allow: seq<ExtensionDescriptor>, locals: seq<LocalExtension>, latest: map<string, string>)
    requires VersionsBumpable(cfg, allow, locals, latest)
    ensures !cfg.pushExtension2NPM ==> AfterPublishAll(cfg, allow, locals, latest) == locals
  {
    if !cfg.pushExtension2NPM {
      var after := AfterPublishAll(cfg, allow, locals, latest);
      assert forall i :: 0 <= i < |locals| ==> after[i] == locals[i];
    }
  }

  /** `publishExtensionsToNpm`, with the extensions in scan order. */
  function Publish(cfg: Config, allow: seq<ExtensionDescriptor>, locals: seq<LocalExtension>, latest: map<string, string>): (r: PublishResult)
    requires VersionsBumpable(cfg, allow, locals, latest)
    // the records do not depend on whether publishing is enabled
    ensures r.records == SelectPublishable(cfg.isBeta, allow, locals)
    ensures |r.locals| == |locals|
    ensures forall i :: 0 <= i < |locals| ==> r.locals[i].extensionName == locals[i].extensionName
    // each extension's manifest is the one the publisher leaves behind for it
    ensures forall i :: 0 <= i < |locals| ==> r.locals[i] == AfterPublish(cfg, allow, locals[i], latest)
    // with publishing disabled nothing is written and nothing is published
    ensures !cfg.pushExtension2NPM ==> r.locals == locals && r.publishedDirs == []
    // `npm publish` runs once per record, in the same order
    ensures cfg.pushExtension2NPM ==> |r.publishedDirs| == |r.records|
    ensures cfg.pushExtension2NPM ==>
      forall i :: 0 <= i < |r.records| ==> r.publishedDirs[i] == r.records[i].extensionName
  {
    var sel := Selected(allow, locals);
    var after := AfterPublishAll(cfg, allow, locals, latest);
    var records := SelectPublishable(cfg.isBeta, allow, locals);
    var dirs := if cfg.pushExtension2NPM then ExtensionNames(sel) else [];
    RecordNames(cfg.isBeta, allow, locals);
    DisabledLeavesLocals(cfg, allow, locals, latest);
    PublishResult(records, after, dirs)
  }

  /** A manifest is rewritten exactly when publishing is enabled and its extension is
      allow-listed; it is then the publishing rewrite, which renames it and bumps its
      version past the base. */
  lemma PublishRewrites(cfg: Config, allow: seq<ExtensionDescriptor>, locals: seq<LocalExtension>, latest: map<string, string>, i: nat)
    requires VersionsBumpable(cfg, allow, locals, latest)
    requires i < |locals|
    ensures var after := Publish(cfg, allow, locals, latest).locals[i];
      if cfg.pushExtension2NPM && IsPublishable(allow, locals[i])
      then after.manifest == RewriteForPublish(cfg, locals[i].manifest, latest) &&
           after.manifest.name == NpmName(cfg.isBeta, locals[i].manifest.name) &&
           Bumpable(after.manifest.version) &&
           ConcatValue(after.manifest.version) == ConcatValue(BaseVersion(cfg.isBeta, locals[i].manifest, latest)) + 1
      else after == locals[i]
  {
    assert Publish(cfg, allow, locals, latest).locals[i] == AfterPublish(cfg, allow, locals[i], latest);
  }
}

=== FILE: scaffold_market.dfy ===
/** The decisions of the project creator's scaffold market
    (extensions/project-creator/web/src/pages/CreateProject/components/ScaffoldMarket/index.tsx):
    splitting a material source's scaffolds into the main and the "more" lists, whether a
    source is wireless, the icon of a source and the language badge and title of a
    scaffold. The scaffold lists of the `constants` module are not part of this model and
    are parameters. */
module ScaffoldMarket {
  import opened Wrappers
  import opened Seqs
  import opened Strs

  /** A material source as the market sees it; an absent `client` or `type` is `None`. */
  datatype MaterialSource = MaterialSource(name: string, client: Option<string>, sourceType: Option<string>)

  /** A scaffold of a material source, with the npm package of its `source`. */
  datatype Scaffold = Scaffold(name: string, title: string, npm: string)

  /** `mainScaffoldsList`, `scaffoldsBlackList`, `tsScaffoldsList`, `jsScaffoldsList`. */
  datatype Catalog = Catalog(mainList: seq<string>, blackList: seq<string>, tsList: seq<string>, jsList: seq<string>)

  /** What `getScaffolds` resolves to. */
  datatype Market = Market(mainScaffolds: seq<Scaffold>, otherScaffolds: seq<Scaffold>)

  // ---------------------------------------------------------------------------
  // getScaffolds

  /** The blacklist applies only inside the company network. */
  predicate Blacklisted(cat: Catalog, isAliInternal: bool, s: Scaffold) {
    isAliInternal && s.npm in cat.blackList
  }

  predicate IsMainScaffold(cat: Catalog, isAliInternal: bool, s: Scaffold) {
    s.npm in cat.mainList && !Blacklisted(cat, isAliInternal, s)
  }

  predicate IsOtherScaffold(cat: Catalog, isAliInternal: bool, s: Scaffold) {
    s.npm !in cat.mainList && !Blacklisted(cat, isAliInternal, s)
  }

  /** The two filters as predicate values. */
  function MainFilter(cat: Catalog, isAliInternal: bool): Scaffold -> bool {
    s => IsMainScaffold(cat, isAliInternal, s)
  }

  function OtherFilter(cat: Catalog, isAliInternal: bool): Scaffold -> bool {
    s => IsOtherScaffold(cat, isAliInternal, s)
  }

  /** `main` before promotion. */
  function MainOf(cat: Catalog, isAliInternal: bool, scaffolds: seq<Scaffold>): (r: seq<Scaffold>)
    ensures forall i :: 0 <= i < |r| ==> r[i] in scaffolds && r[i].npm in cat.mainList && !Blacklisted(cat, isAliInternal, r[i])
    ensures forall i :: 0 <= i < |scaffolds| && scaffolds[i].npm in cat.mainList && !Blacklisted(cat, isAliInternal, scaffolds[i]) ==>
      scaffolds[i] in r
  {
    var r := Filter(MainFilter(cat, isAliInternal), scaffolds);
    assert forall i :: 0 <= i < |scaffolds| ==> MainFilter(cat, isAliInternal)(scaffolds[i]) == IsMainScaffold(cat, isAliInternal, scaffolds[i]);
    r
  }

  /** `other` before promotion. */
  function OtherOf(cat: Catalog, isAliInternal: bool, scaffolds: seq<Scaffold>): (r: seq<Scaffold>)
    ensures forall i :: 0 <= i < |r| ==> r[i] in scaffolds && r[i].npm !in cat.mainList && !Blacklisted(cat, isAliInternal, r[i])
    ensures forall i :: 0 <= i < |scaffolds| && scaffolds[i].npm !in cat.mainList && !Blacklisted(cat, isAliInternal, scaffolds[i]) ==>
      scaffolds[i] in r
  {
    var r := Filter(OtherFilter(cat, isAliInternal), scaffolds);
    assert forall i :: 0 <= i < |scaffolds| ==> OtherFilter(cat, isAliInternal)(scaffolds[i]) == IsOtherScaffold(cat, isAliInternal, scaffolds[i]);
    r
  }

  /** Both lists keep input order: filtering the scaffolds piecewise gives the pieces'
      lists one after the other. */
  lemma SplitKeepsOrder(cat: Catalog, isAliInternal: bool, a: seq<Scaffold>, b: seq<Scaffold>)
    ensures MainOf(cat, isAliInternal, a + b) == MainOf(cat, isAliInternal, a) + MainOf(cat, isAliInternal, b)
    ensures OtherOf(cat, isAliInternal, a + b) == OtherOf(cat, isAliInternal, a) + OtherOf(cat, isAliInternal, b)
  {
    FilterAppend(MainFilter(cat, isAliInternal), a, b);
    FilterAppend(OtherFilter(cat, isAliInternal), a, b);
  }

  /** Outside the company network nothing is dropped: the two lists split the input, each
      scaffold going to exactly one of them. */
  lemma SplitIsPartition(cat: Catalog, scaffolds: seq<Scaffold>)
    ensures multiset(MainOf(cat, false, scaffolds)) + multiset(OtherOf(cat, false, scaffolds)) == multiset(scaffolds)
    ensures forall i, j :: 0 <= i < |MainOf(cat, false, scaffolds)| && 0 <= j < |OtherOf(cat, false, scaffolds)| ==>
      MainOf(cat, false, scaffolds)[i] != OtherOf(cat, false, scaffolds)[j]
  {
    var p, q := MainFilter(cat, false), OtherFilter(cat, false);
    assert forall s :: q(s) == !p(s);
    FilterPartition(p, q, scaffolds);
  }

  /** Inside the network a blacklisted scaffold appears in neither list. */
  lemma BlacklistedNowhere(cat: Catalog, scaffolds: seq<Scaffold>, s: Scaffold)
    requires s.npm in cat.blackList
    ensures s !in MainOf(cat, true, scaffolds) && s !in OtherOf(cat, true, scaffolds)
  {
  }

  /** `getScaffolds`: the service's answer (or its failure) split into the two lists, the
      "more" list promoted when the main list is empty. */
  function GetScaffolds(cat: Catalog, isAliInternal: bool, fetched: Result<seq<Scaffold>>): (r: Market)
    // a failing service call shows nothing
    ensures fetched.Failure? ==> r == Market([], [])
    // an empty main list never sits next to a non-empty "more" list
    ensures |r.mainScaffolds| == 0 ==> |r.otherScaffolds| == 0
    ensures fetched.Success? ==>
      var main, other := MainOf(cat, isAliInternal, fetched.value), OtherOf(cat, isAliInternal, fetched.value);
      if |main| == 0 && |other| > 0 then r == Market(other, []) else r == Market(main, other)
  {
    match fetched
    case Failure(_) => Market([], [])
    case Success(scaffolds) =>
      var main := MainOf(cat, isAliInternal, scaffolds);
      var other := OtherOf(cat, isAliInternal, scaffolds);
      if |main| == 0 && |other| > 0 then Market(other, []) else Market(main, other)
  }

  /** Whatever the promotion does, the market shows exactly the scaffolds that are not
      blacklisted. */
  lemma GetScaffoldsShowsAllowed(cat: Catalog, isAliInternal: bool, scaffolds: seq<Scaffold>, s: Scaffold)
    ensures var r := GetScaffolds(cat, isAliInternal, Success(scaffolds));
      (s in r.mainScaffolds || s in r.otherScaffolds) <==> (s in scaffolds && !Blacklisted(cat, isAliInternal, s))
  {
    var main, other := MainOf(cat, isAliInternal, scaffolds), OtherOf(cat, isAliInternal, scaffolds);
    if s in scaffolds && !Blacklisted(cat, isAliInternal, s) {
      var i :| 0 <= i < |scaffolds| && scaffolds[i] == s;
    }
    if s in main {
      var i :| 0 <= i < |main| && main[i] == s;
    }
    if s in other {
      var i :| 0 <= i < |other| && other[i] == s;
    }
  }

  // ---------------------------------------------------------------------------
  // checkIsWireless and the source icon

  /** The project types whose scaffolds are shown on mobile cards. */
  const WirelessTypes: set<string> := {"rax", "miniProgram"}

  /** `checkIsWireless(source)`: whether the scaffolds get the mobile card. */
  function IsWireless(source: MaterialSource): (r: bool)
    // without a client, only the project type decides
    ensures !Truthy(source.client) ==> (r <==> source.sourceType.Some? && source.sourceType.value in WirelessTypes)
    // for any other project type, only a client of exactly `wireless` does
    ensures (source.sourceType.None? || source.sourceType.value !in WirelessTypes) ==> (r <==> source.client == Some("wireless"))
    // a `rax` or `miniProgram` type is wireless whatever the client
    ensures source.sourceType.Some? && source.sourceType.value in WirelessTypes ==> r
  {
    source.client == Some("wireless") || source.sourceType == Some("rax") || source.sourceType == Some("miniProgram")
  }

  const ProjectTypes: seq<string> := ["react", "rax", "vue"]

  /** A JavaScript string is truthy when it is present and not empty. */
  predicate Truthy(s: Option<string>) {
    s.Some? && |s.value| > 0
  }

  /** The icon shown beside a material source: its client, else its project type when
      that is a known one, else `app`. Reading the type of a source without one throws. */
  function IconName(item: MaterialSource): (r: string)
    requires item.sourceType.Some?
    ensures Truthy(item.client) ==> r == Lower(item.client.value)
    ensures !Truthy(item.client) ==> r in ProjectTypes + ["app"]
    ensures !Truthy(item.client) && Lower(item.sourceType.value) in ProjectTypes ==> r == Lower(item.sourceType.value)
    ensures !Truthy(item.client) && Lower(item.sourceType.value) !in ProjectTypes ==> r == "app"
  {
    var projectType := Lower(item.sourceType.value);
    if Truthy(item.client) then Lower(item.client.value)
    else if projectType in ProjectTypes then projectType
    else "app"
  }

  lemma LowerCharIdempotent(c: char)
    ensures LowerChar(LowerChar(c)) == LowerChar(c)
  {
  }

  /** Every icon name is already lower case, so icons are looked up case-insensitively. */
  lemma IconNameIsLower(item: MaterialSource)
    requires item.sourceType.Some?
    ensures Lower(IconName(item)) == IconName(item)
  {
    var r := IconName(item);
    if Truthy(item.client) {
      forall i | 0 <= i < |r| ensures LowerChar(r[i]) == r[i] {
        LowerCharIdempotent(item.client.value[i]);
      }
    } else {
      assert r == "react" || r == "rax" || r == "vue" || r == "app";
    }
  }

  /** A source of project type `rax` without a client is wireless and shows the `rax` icon;
      a source whose client is `wireless` is wireless and shows the `wireless` icon. */
  lemma WirelessIcons(item: MaterialSource)
    requires item.sourceType.Some?
    ensures item.client.None? && item.sourceType == Some("rax") ==> IsWireless(item) && IconName(item) == "rax"
    ensures item.client == Some("wireless") ==> IsWireless(item) && IconName(item) == "wireless"
  {
    assert Lower("rax") == "rax";
    assert Lower("wireless") == "wireless";
  }

  /** Card and icon agree for sources without a client: a wireless one shows the `rax` or
      the `app` icon, and one showing the `react` or `vue` icon is not wireless. The
      comparisons differ in case, though: a client `Wireless` shows the `wireless` icon on
      a desktop card. */
  lemma WirelessIconAgreement(item: MaterialSource)
    requires item.sourceType.Some?
    ensures !Truthy(item.client) && IsWireless(item) ==> IconName(item) == "rax" || IconName(item) == "app"
    ensures !Truthy(item.client) && (IconName(item) == "react" || IconName(item) == "vue") ==> !IsWireless(item)
    ensures item.client == Some("Wireless") && item.sourceType.value !in WirelessTypes ==>
      IconName(item) == "wireless" && !IsWireless(item)
  {
    assert Lower("rax") == "rax";
    assert Lower("Wireless") == "wireless";
    if !Truthy(item.client) && IsWireless(item) && item.sourceType.value == "miniProgram" {
      assert Lower("miniProgram")[4] == 'p';
    }
    if !Truthy(item.client) && IconName(item) == "react" {
      assert Lower("rax") != "react" && Lower("miniProgram") != "react";
    }
    if !Truthy(item.client) && IconName(item) == "vue" {
      assert Lower("rax") != "vue" && |Lower("miniProgram")| != 3;
    }
  }

  // ---------------------------------------------------------------------------
  // the language badge and the title

  /** The badge of a scaffold: `ts`, `js`, or none (the empty string). */
  function ScaffoldType(cat: Catalog, s: Scaffold): (r: string)
    ensures r == "ts" <==> s.npm in cat.tsList
    ensures r == "js" <==> s.npm !in cat.tsList && s.npm in cat.jsList
    ensures r == "" <==> s.npm !in cat.tsList && s.npm !in cat.jsList
  {
    if s.npm in cat.tsList then "ts" else if s.npm in cat.jsList then "js" else ""
  }

  const TsMarker: string := " - TS"
  const JsMarker: string := " - JS"

  /** Which list a card is drawn in: the two strip the title markers in opposite orders. */
  datatype Panel = MainPanel | MorePanel

  /** The title on a scaffold card: with a badge, the first ` - TS` and the first ` - JS`
      are deleted (in the panel's order); without one, the title is shown as is. */
  function DisplayTitle(cat: Catalog, panel: Panel, s: Scaffold): (r: string)
    ensures ScaffoldType(cat, s) == "" ==> r == s.title
    ensures ScaffoldType(cat, s) != "" && IndexOf(s.title, TsMarker) == -1 && IndexOf(s.title, JsMarker) == -1 ==> r == s.title
    ensures |r| <= |s.title|
  {
    if ScaffoldType(cat, s) == "" then s.title
    else match panel
      case MainPanel => ReplaceFirst(ReplaceFirst(s.title, TsMarker, ""), JsMarker, "")
      case MorePanel => ReplaceFirst(ReplaceFirst(s.title, JsMarker, ""), TsMarker, "")
  }

  /** A title made of text free of both markers followed by one of them holds the other
      marker nowhere. */
  lemma OtherMarkerAbsent(t: string, marker: string, other: string)
    requires (marker == TsMarker && other == JsMarker) || (marker == JsMarker && other == TsMarker)
    requires forall i: nat :: i < |t| ==> !OccursAt(t + marker, TsMarker, i) && !OccursAt(t + marker, JsMarker, i)
    ensures IndexOf(t + marker, other) == -1 && IndexOf(t, other) == -1
  {
    var title := t + marker;
    forall i: nat ensures !OccursAt(title, other, i) {
      if i == |t| {
        assert title[i..] == marker;
        assert marker[3] != other[3];
      }
    }
    forall i: nat ensures !OccursAt(t, other, i) {
      if i + |other| <= |t| {
        assert i < |t|;
        assert !OccursAt(title, other, i);
        assert title[i..i + |other|] == t[i..i + |other|];
      }
    }
  }

  /** A badged title that ends in its language marker, with no marker anywhere before it,
      loses exactly that marker, in either panel. */
  lemma DisplayTitleStripsMarker(cat: Catalog, panel: Panel, s: Scaffold, t: string, marker: string)
    requires ScaffoldType(cat, s) != ""
    requires marker == TsMarker || marker == JsMarker
    requires s.title == t + marker
    requires forall i: nat :: i < |t| ==> !OccursAt(s.title, TsMarker, i) && !OccursAt(s.title, JsMarker, i)
    ensures DisplayTitle(cat, panel, s) == t
  {
    var other := if marker == TsMarker then JsMarker else TsMarker;
    RemoveTrailingMarker(t, marker);
    OtherMarkerAbsent(t, marker, other);
  }
}

=== FILE: seqs.dfy ===
/** Sequence operations the pack script borrows from lodash and from `Array.prototype`:
    `filter`, a left `reduce` of `concat`, and `unionBy` (duplicate removal by a key,
    first occurrence kept, first-seen order). */
module Seqs {

  /** The identity, used as the key of a plain `unionBy(xs)` with no iteratee. */
  function Id<T>(x: T): T { x }

  /** A sequence is its prefix followed by the rest. */
  lemma SplitAt<T>(xs: seq<T>, n: nat)
    requires n <= |xs|
    ensures xs == xs[..n] + xs[n..]
  {
  }

  // ---------------------------------------------------------------------------
  // filter

  /** `xs.filter(p)`: the elements satisfying `p`, in input order. */
  function Filter<T>(p: T -> bool, xs: seq<T>): (r: seq<T>)
    ensures |r| <= |xs|
    ensures forall i :: 0 <= i < |r| ==> r[i] in xs && p(r[i])
    ensures forall i :: 0 <= i < |xs| && p(xs[i]) ==> xs[i] in r
  {
    if |xs| == 0 then []
    else
      var rest := Filter(p, xs[..|xs| - 1]);
      assert xs == xs[..|xs| - 1] + [xs[|xs| - 1]];
      if p(xs[|xs| - 1]) then rest + [xs[|xs| - 1]] else rest
  }

  /** Filtering distributes over concatenation: together with the one-element case this
      pins `Filter` down as "the satisfying elements, in input order". */
  lemma {:induction false} FilterAppend<T>(p: T -> bool, a: seq<T>, b: seq<T>)
    ensures Filter(p, a + b) == Filter(p, a) + Filter(p, b)
    decreases |b|
  {
    if |b| == 0 {
      assert a + b == a;
    } else {
      var b' := b[..|b| - 1];
      assert (a + b)[..|a + b| - 1] == a + b';
      assert (a + b)[|a + b| - 1] == b[|b| - 1];
      FilterAppend(p, a, b');
    }
  }

  /** A one-element sequence is kept exactly when it satisfies the predicate. */
  lemma FilterSingleton<T>(p: T -> bool, x: T)
    ensures Filter(p, [x]) == if p(x) then [x] else []
  {
    assert [x][..0] == [];
  }

  /** A filter and its complementary filter split the input: together they hold every
      element exactly as often as the input does. */
  lemma {:induction false} FilterPartition<T>(p: T -> bool, q: T -> bool, xs: seq<T>)
    requires forall x :: q(x) == !p(x)
    ensures multiset(Filter(p, xs)) + multiset(Filter(q, xs)) == multiset(xs)
    decreases |xs|
  {
    if |xs| > 0 {
      var init := xs[..|xs| - 1];
      FilterPartition(p, q, init);
      assert xs == init + [xs[|xs| - 1]];
    }
  }

  /** Filtering by a predicate every element satisfies changes nothing. */
  lemma {:induction false} FilterAll<T>(p: T -> bool, xs: seq<T>)
    requires forall i :: 0 <= i < |xs| ==> p(xs[i])
    ensures Filter(p, xs) == xs
    decreases |xs|
  {
    if |xs| > 0 {
      FilterAll(p, xs[..|xs| - 1]);
      assert xs == xs[..|xs| - 1] + [xs[|xs| - 1]];
    }
  }

  // ---------------------------------------------------------------------------
  // reduce-concat

  /** A left `reduce` that concatenates the parts onto an empty list: as long as all parts
      together. */
  function Flatten<T>(xss: seq<seq<T>>): (r: seq<T>)
    ensures |r| == SumLengths(xss)
    decreases |xss|
  {
    if |xss| == 0 then [] else Flatten(xss[..|xss| - 1]) + xss[|xss| - 1]
  }

  /** The summed lengths of a sequence of sequences. */
  function SumLengths<T>(xss: seq<seq<T>>): nat
  {
    if |xss| == 0 then 0 else SumLengths(xss[..|xss| - 1]) + |xss[|xss| - 1]|
  }

  /** Element `i` of part `k` sits in the flattened sequence right after all earlier parts. */
  lemma {:induction false} FlattenIndex<T>(xss: seq<seq<T>>, k: nat, i: nat)
    requires k < |xss| && i < |xss[k]|
    ensures SumLengths(xss[..k]) + i < |Flatten(xss)|
    ensures Flatten(xss)[SumLengths(xss[..k]) + i] == xss[k][i]
    decreases |xss|
  {
    var init := xss[..|xss| - 1];
    assert Flatten(xss) == Flatten(init) + xss[|xss| - 1];
    if k < |xss| - 1 {
      FlattenIndex(init, k, i);
      assert init[..k] == xss[..k];
    } else {
      assert xss[..k] == init;
    }
  }

  /** Whatever occurs in the flattened sequence occurs in one of the parts. */
  lemma {:induction false} FlattenMember<T>(xss: seq<seq<T>>, x: T)
    requires x in Flatten(xss)
    ensures exists k, i :: 0 <= k < |xss| && 0 <= i < |xss[k]| && xss[k][i] == x
    decreases |xss|
  {
    var init := xss[..|xss| - 1];
    var last := xss[|xss| - 1];
    if x in last {
      var i :| 0 <= i < |last| && last[i] == x;
      assert xss[|xss| - 1][i] == x;
    } else {
      FlattenMember(init, x);
      var k, i :| 0 <= k < |init| && 0 <= i < |init[k]| && init[k][i] == x;
      assert xss[k][i] == x;
    }
  }

  /** Flattening distributes over concatenation of the outer sequence. */
  lemma {:induction false} FlattenAppend<T>(a: seq<seq<T>>, b: seq<seq<T>>)
    ensures Flatten(a + b) == Flatten(a) + Flatten(b)
    decreases |b|
  {
    if |b| == 0 {
      assert a + b == a;
    } else {
      var b' := b[..|b| - 1];
      var last := b[|b| - 1];
      assert (a + b)[..|a + b| - 1] == a + b';
      assert (a + b)[|a + b| - 1] == last;
      FlattenAppend(a, b');
      calc {
        Flatten(a + b);
        Flatten(a + b') + last;
        (Flatten(a) + Flatten(b')) + last;
        Flatten(a) + (Flatten(b') + last);
        Flatten(a) + Flatten(b);
      }
    }
  }

  // ---------------------------------------------------------------------------
  // unionBy

  /** The keys occurring in `xs`. */
  function KeysOf<T, K(==)>(xs: seq<T>, key: T -> K): set<K>
  {
    set i | 0 <= i < |xs| :: key(xs[i])
  }

  lemma KeysOfAppend<T, K>(xs: seq<T>, x: T, key: T -> K)
    ensures KeysOf(xs + [x], key) == KeysOf(xs, key) + {key(x)}
  {
    var l := KeysOf(xs + [x], key);
    var r := KeysOf(xs, key) + {key(x)};
    forall k | k in l ensures k in r {
      var i :| 0 <= i < |xs| + 1 && key((xs + [x])[i]) == k;
      if i < |xs| { assert key(xs[i]) == k; }
    }
    forall k | k in r ensures k in l {
      if k == key(x) {
        assert (xs + [x])[|xs|] == x;
      } else {
        var i :| 0 <= i < |xs| && key(xs[i]) == k;
        assert (xs + [x])[i] == xs[i];
      }
    }
  }

  lemma KeysOfConcat<T, K>(a: seq<T>, b: seq<T>, key: T -> K)
    ensures KeysOf(a + b, key) == KeysOf(a, key) + KeysOf(b, key)
  {
    var l := KeysOf(a + b, key);
    forall k | k in l ensures k in KeysOf(a, key) + KeysOf(b, key) {
      var i :| 0 <= i < |a + b| && key((a + b)[i]) == k;
      if i < |a| { assert key(a[i]) == k; } else { assert key(b[i - |a|]) == k; }
    }
    forall k | k in KeysOf(a, key) ensures k in l {
      var i :| 0 <= i < |a| && key(a[i]) == k;
      assert (a + b)[i] == a[i];
    }
    forall k | k in KeysOf(b, key) ensures k in l {
      var i :| 0 <= i < |b| && key(b[i]) == k;
      assert (a + b)[|a| + i] == b[i];
    }
  }

  /** Under the identity key, the keys of a sequence are its elements. */
  lemma KeysOfId<T>(xs: seq<T>, e: T)
    ensures e in KeysOf(xs, Id) <==> e in xs
  {
    if e in xs {
      var i :| 0 <= i < |xs| && xs[i] == e;
      assert Id(xs[i]) in KeysOf(xs, Id);
    }
  }

  /** No two elements share a key. */
  ghost predicate UniqueBy<T, K>(xs: seq<T>, key: T -> K)
  {
    forall i, j :: 0 <= i < j < |xs| ==> key(xs[i]) != key(xs[j])
  }

  /** The index of the first element of `xs` whose key is `k`. */
  function FirstIndex<T, K(==)>(xs: seq<T>, key: T -> K, k: K): (i: nat)
    requires k in KeysOf(xs, key)
    ensures i < |xs| && key(xs[i]) == k
    ensures forall j :: 0 <= j < i ==> key(xs[j]) != k
    decreases |xs|
  {
    if key(xs[0]) == k then 0
    else
      assert k in KeysOf(xs[1..], key) by {
        var i :| 0 <= i < |xs| && key(xs[i]) == k;
        assert key(xs[1..][i - 1]) == k;
      }
      1 + FirstIndex(xs[1..], key, k)
  }

  /** Any index whose key is `k` and before which `k` does not occur is the first index. */
  lemma FirstIndexIs<T, K>(xs: seq<T>, key: T -> K, k: K, i: nat)
    requires i < |xs| && key(xs[i]) == k
    requires forall j :: 0 <= j < i ==> key(xs[j]) != k
    ensures k in KeysOf(xs, key) && FirstIndex(xs, key, k) == i
  {
    assert k in KeysOf(xs, key);
  }

  /** Appending an element does not move the first index of a key already present. */
  lemma FirstIndexExtend<T, K>(init: seq<T>, x: T, key: T -> K, k: K)
    requires k in KeysOf(init, key)
    ensures k in KeysOf(init + [x], key) && FirstIndex(init + [x], key, k) == FirstIndex(init, key, k)
  {
    var xs := init + [x];
    var f := FirstIndex(init, key, k);
    assert xs[f] == init[f];
    forall j | 0 <= j < f ensures key(xs[j]) != k {
      assert xs[j] == init[j];
    }
    FirstIndexIs(xs, key, k, f);
  }

  /** lodash `unionBy(xs, key)`: keeps the first element of each key, in first-seen order. */
  function UnionBy<T, K(==)>(xs: seq<T>, key: T -> K): (r: seq<T>)
    ensures UniqueBy(r, key)
    ensures KeysOf(r, key) == KeysOf(xs, key)
    ensures |r| <= |xs|
    decreases |xs|
  {
    if |xs| == 0 then []
    else
      var init := xs[..|xs| - 1];
      var x := xs[|xs| - 1];
      var p := UnionBy(init, key);
      assert xs == init + [x];
      KeysOfAppend(init, x, key);
      if key(x) in KeysOf(p, key) then p
      else
        KeysOfAppend(p, x, key);
        assert forall i :: 0 <= i < |p| ==> key(p[i]) in KeysOf(p, key);
        p + [x]
  }

  /** One step of `UnionBy`: the next element is appended exactly when its key is new. */
  lemma UnionByStep<T, K>(init: seq<T>, x: T, key: T -> K)
    ensures UnionBy(init + [x], key) ==
      if key(x) in KeysOf(init, key) then UnionBy(init, key) else UnionBy(init, key) + [x]
  {
    assert (init + [x])[..|init|] == init;
  }

  /** The element `UnionBy` keeps for each key is the first one of `xs` with that key. */
  lemma {:induction false} UnionKeepsFirst<T, K>(xs: seq<T>, key: T -> K)
    ensures forall i :: 0 <= i < |UnionBy(xs, key)| ==>
      var r := UnionBy(xs, key);
      key(r[i]) in KeysOf(xs, key) && r[i] == xs[FirstIndex(xs, key, key(r[i]))]
    decreases |xs|
  {
    var r := UnionBy(xs, key);
    if |xs| > 0 {
      var init := xs[..|xs| - 1];
      var x := xs[|xs| - 1];
      assert xs == init + [x];
      UnionKeepsFirst(init, key);
      UnionByStep(init, x, key);
      var p := UnionBy(init, key);
      forall i | 0 <= i < |r| ensures key(r[i]) in KeysOf(xs, key) && r[i] == xs[FirstIndex(xs, key, key(r[i]))] {
        if i < |p| {
          var f := FirstIndex(init, key, key(p[i]));
          FirstIndexIs(xs, key, key(p[i]), f);
        } else {
          FirstIndexIs(xs, key, key(x), |init|);
        }
      }
    }
  }

  /** `UnionBy` lists keys in the order of their first occurrence in `xs`. */
  lemma {:induction false} UnionFirstSeenOrder<T, K>(xs: seq<T>, key: T -> K)
    ensures forall i, j :: 0 <= i < j < |UnionBy(xs, key)| ==>
      var r := UnionBy(xs, key);
      key(r[i]) in KeysOf(xs, key) && key(r[j]) in KeysOf(xs, key) &&
      FirstIndex(xs, key, key(r[i])) < FirstIndex(xs, key, key(r[j]))
    decreases |xs|
  {
    var r := UnionBy(xs, key);
    if |xs| > 0 {
      var init := xs[..|xs| - 1];
      var x := xs[|xs| - 1];
      assert xs == init + [x];
      UnionFirstSeenOrder(init, key);
      UnionByStep(init, x, key);
      var p := UnionBy(init, key);
      forall i, j | 0 <= i < j < |r|
        ensures key(r[i]) in KeysOf(xs, key) && key(r[j]) in KeysOf(xs, key) &&
          FirstIndex(xs, key, key(r[i])) < FirstIndex(xs, key, key(r[j]))
      {
        assert r[i] == p[i];
        assert key(p[i]) in KeysOf(p, key);
        FirstIndexExtend(init, x, key, key(p[i]));
        if j < |p| {
          assert r[j] == p[j];
          assert key(p[j]) in KeysOf(p, key);
          FirstIndexExtend(init, x, key, key(p[j]));
        } else {
          assert r[j] == x;
          FirstIndexIs(xs, key, key(x), |init|);
        }
      }
    }
  }

  /** A sequence that already has unique keys is its own union. */
  lemma {:induction false} UnionOfUnique<T, K>(xs: seq<T>, key: T -> K)
    requires UniqueBy(xs, key)
    ensures UnionBy(xs, key) == xs
    decreases |xs|
  {
    if |xs| > 0 {
      var init := xs[..|xs| - 1];
      UnionOfUnique(init, key);
      assert key(xs[|xs| - 1]) !in KeysOf(init, key);
      assert xs == init + [xs[|xs| - 1]];
    }
  }

  /** `UnionBy` is idempotent. */
  lemma UnionIdempotent<T, K>(xs: seq<T>, key: T -> K)
    ensures UnionBy(UnionBy(xs, key), key) == UnionBy(xs, key)
  {
    UnionOfUnique(UnionBy(xs, key), key);
  }

  /** The union of `s + b` depends on `s` only through the union of `s`. */
  lemma {:induction false} UnionCongruence<T, K>(s1: seq<T>, s2: seq<T>, b: seq<T>, key: T -> K)
    requires UnionBy(s1, key) == UnionBy(s2, key)
    ensures UnionBy(s1 + b, key) == UnionBy(s2 + b, key)
    decreases |b|
  {
    if |b| == 0 {
      assert s1 + b == s1 && s2 + b == s2;
    } else {
      var b' := b[..|b| - 1];
      UnionCongruence(s1, s2, b', key);
      assert (s1 + b)[..|s1 + b| - 1] == s1 + b';
      assert (s2 + b)[..|s2 + b| - 1] == s2 + b';
      assert (s1 + b)[|s1 + b| - 1] == b[|b| - 1] == (s2 + b)[|s2 + b| - 1];
    }
  }

  /** Folding `unionBy(acc.concat(next))` step by step equals one union of everything. */
  lemma UnionAssociates<T, K>(a: seq<T>, b: seq<T>, key: T -> K)
    ensures UnionBy(UnionBy(a, key) + b, key) == UnionBy(a + b, key)
  {
    UnionIdempotent(a, key);
    UnionCongruence(UnionBy(a, key), a, b, key);
  }

  /** Appending elements whose keys are all present already changes nothing. */
  lemma {:induction false} UnionAbsorbs<T, K>(p: seq<T>, c: seq<T>, key: T -> K)
    requires UniqueBy(p, key)
    requires KeysOf(c, key) <= KeysOf(p, key)
    ensures UnionBy(p + c, key) == p
    decreases |c|
  {
    if |c| == 0 {
      assert p + c == p;
      UnionOfUnique(p, key);
    } else {
      var c' := c[..|c| - 1];
      KeysOfAppend(c', c[|c| - 1], key);
      assert c == c' + [c[|c| - 1]];
      UnionAbsorbs(p, c', key);
      assert (p + c)[..|p + c| - 1] == p + c';
      assert (p + c)[|p + c| - 1] == c[|c| - 1];
    }
  }

  /** Folding the same contribution twice equals folding it once. */
  lemma UnionFoldTwice<T, K>(acc: seq<T>, c: seq<T>, key: T -> K)
    ensures UnionBy(UnionBy(acc + c, key) + c, key) == UnionBy(acc + c, key)
  {
    KeysOfConcat(acc, c, key);
    UnionAbsorbs(UnionBy(acc + c, key), c, key);
  }

  /** When the accumulator is already unique, the union only appends: every existing
      element stays where it is. */
  lemma UnionKeepsUniquePrefix<T, K>(acc: seq<T>, c: seq<T>, key: T -> K)
    ensures UniqueBy(acc, key) ==> acc <= UnionBy(acc + c, key)
  {
    if UniqueBy(acc, key) {
      UnionOfUnique(acc, key);
      UnionPrefix(acc, c, key);
    }
  }

  /** The union of a sequence extends the union of any of its prefixes. */
  lemma {:induction false} UnionPrefix<T, K>(a: seq<T>, b: seq<T>, key: T -> K)
    ensures UnionBy(a, key) <= UnionBy(a + b, key)
    decreases |b|
  {
    if |b| == 0 {
      assert a + b == a;
    } else {
      var b' := b[..|b| - 1];
      UnionPrefix(a, b', key);
      assert (a + b)[..|a + b| - 1] == a + b';
    }
  }
}

=== FILE: strs.dfy ===
/** String helpers with the JavaScript semantics the modelled code relies on:
    decimal digits (`parseInt`, `String(n)`, lodash `padStart`), `indexOf`,
    `String.prototype.replace` with a string pattern, and lower-casing. */
module Strs {

  // ---------------------------------------------------------------------------
  // decimal digits

  predicate IsDigit(c: char) { '0' <= c <= '9' }

  predicate AllDigits(s: string) { forall i :: 0 <= i < |s| ==> IsDigit(s[i]) }

  function DigitValue(c: char): (d: nat)
    requires IsDigit(c)
    ensures d < 10
  {
    (c as int) - ('0' as int)
  }

  function DigitChar(d: nat): (c: char)
    requires d < 10
    ensures IsDigit(c) && DigitValue(c) == d
  {
    (('0' as int) + d) as char
  }

  /** `parseInt` of an all-digit string (base 10, leading zeros allowed). The empty
      string, where `parseInt` gives `NaN`, reads as 0 here; callers that parse a version
      exclude it (see `Version.Bumpable`). */
  function ParseDigits(s: string): (r: nat)
    requires AllDigits(s)
    // an n-digit numeral stays below 10^n
    ensures r < Pow10(|s|)
    decreases |s|
  {
    if |s| == 0 then 0
    else
      var p := ParseDigits(s[..|s| - 1]);
      assert p * 10 + 9 < Pow10(|s| - 1) * 10 by {
        assert p + 1 <= Pow10(|s| - 1);
      }
      p * 10 + DigitValue(s[|s| - 1])
  }

  function Pow10(n: nat): (r: nat)
    ensures r >= 1
  {
    if n == 0 then 1 else 10 * Pow10(n - 1)
  }

  lemma AllDigitsConcat(a: string, b: string)
    requires AllDigits(a) && AllDigits(b)
    ensures AllDigits(a + b)
  {
    forall i | 0 <= i < |a + b| ensures IsDigit((a + b)[i]) {
      if i >= |a| { assert (a + b)[i] == b[i - |a|]; }
    }
  }

  lemma ShiftDigit(x: int, p: int, y: int, d: int)
    ensures (x * p + y) * 10 + d == x * (10 * p) + (y * 10 + d)
  {
  }

  /** Reading `a + b` reads `a` shifted left by the length of `b`. */
  lemma {:induction false} ParseDigitsConcat(a: string, b: string)
    requires AllDigits(a) && AllDigits(b)
    ensures AllDigits(a + b)
    ensures ParseDigits(a + b) == ParseDigits(a) * Pow10(|b|) + ParseDigits(b)
    decreases |b|
  {
    AllDigitsConcat(a, b);
    if |b| == 0 {
      assert a + b == a;
    } else {
      var b' := b[..|b| - 1];
      var d := DigitValue(b[|b| - 1]);
      ParseDigitsConcat(a, b');
      assert (a + b)[..|a + b| - 1] == a + b';
      assert (a + b)[|a + b| - 1] == b[|b| - 1];
      var x, y := ParseDigits(a), ParseDigits(b');
      calc {
        ParseDigits(a + b);
        ParseDigits(a + b') * 10 + d;
        (x * Pow10(|b'|) + y) * 10 + d;
        { ShiftDigit(x, Pow10(|b'|), y, d); }
        x * (10 * Pow10(|b'|)) + (y * 10 + d);
        x * Pow10(|b|) + (y * 10 + d);
      }
    }
  }

  /** `count` copies of `c`. */
  function Repeat(c: char, count: nat): (r: string)
    ensures |r| == count
    ensures forall i :: 0 <= i < count ==> r[i] == c
  {
    if count == 0 then [] else [c] + Repeat(c, count - 1)
  }

  /** A run of zeros reads as zero. */
  lemma {:induction false} ZerosReadZero(k: nat)
    ensures AllDigits(Repeat('0', k)) && ParseDigits(Repeat('0', k)) == 0
    decreases k
  {
    if k > 0 {
      ZerosReadZero(k - 1);
      var z := Repeat('0', k);
      assert z[..k - 1] == Repeat('0', k - 1);
    }
  }

  /** `String(n)` for a non-negative integer: the shortest decimal numeral of `n`. */
  function DecimalString(n: nat): (r: string)
    ensures |r| >= 1 && AllDigits(r)
    ensures ParseDigits(r) == n
    ensures |r| == 1 || r[0] != '0'
    decreases n
  {
    if n < 10 then [DigitChar(n)]
    else
      var init := DecimalString(n / 10);
      var r := init + [DigitChar(n % 10)];
      assert r[..|r| - 1] == init;
      r
  }

  /** lodash `padStart(s, width, c)`: `s` left-padded with `c` up to `width` characters. */
  function PadStart(s: string, width: nat, c: char): (r: string)
    ensures |r| == if |s| < width then width else |s|
    ensures r[|r| - |s|..] == s
    ensures forall i :: 0 <= i < |r| - |s| ==> r[i] == c
  {
    if |s| < width then Repeat(c, width - |s|) + s else s
  }

  /** Left-padding a numeral with zeros does not change what it reads as. */
  lemma ZeroPadKeepsValue(s: string, width: nat)
    requires AllDigits(s)
    ensures AllDigits(PadStart(s, width, '0'))
    ensures ParseDigits(PadStart(s, width, '0')) == ParseDigits(s)
  {
    if |s| < width {
      ZerosReadZero(width - |s|);
      ParseDigitsConcat(Repeat('0', width - |s|), s);
    }
  }

  // ---------------------------------------------------------------------------
  // searching and replacing

  predicate StartsWith(s: string, prefix: string) {
    |prefix| <= |s| && s[..|prefix|] == prefix
  }

  predicate EndsWith(s: string, suffix: string) {
    |suffix| <= |s| && s[|s| - |suffix|..] == suffix
  }

  /** Whether `pat` occurs in `s` at position `i`. */
  predicate OccursAt(s: string, pat: string, i: nat) {
    i + |pat| <= |s| && s[i..i + |pat|] == pat
  }

  /** `s.indexOf(pat, from)`: the first position at or after `from` where `pat` occurs, or -1. */
  function IndexOfFrom(s: string, pat: string, from: nat): (r: int)
    ensures r == -1 || (from <= r && OccursAt(s, pat, r))
    ensures r == -1 ==> forall i :: from <= i ==> !OccursAt(s, pat, i)
    ensures r != -1 ==> forall i :: from <= i < r ==> !OccursAt(s, pat, i)
    decreases |s| - from
  {
    if from + |pat| > |s| then -1
    else if s[from..from + |pat|] == pat then from
    else IndexOfFrom(s, pat, from + 1)
  }

  /** `s.indexOf(pat)`. */
  function IndexOf(s: string, pat: string): (r: int)
    ensures r == -1 || (0 <= r && OccursAt(s, pat, r))
    ensures r == -1 <==> forall i :: !OccursAt(s, pat, i)
    ensures r != -1 ==> forall i :: 0 <= i < r ==> !OccursAt(s, pat, i)
  {
    IndexOfFrom(s, pat, 0)
  }

  /** A first occurrence at position 0 is exactly the prefix test. */
  lemma IndexOfZeroIsPrefix(s: string, prefix: string)
    ensures IndexOf(s, prefix) == 0 <==> StartsWith(s, prefix)
  {
    if StartsWith(s, prefix) {
      assert OccursAt(s, prefix, 0);
    }
  }

  /** `s.replace(pat, rep)` with a string pattern: only the first occurrence is replaced. */
  function ReplaceFirst(s: string, pat: string, rep: string): (r: string)
    ensures IndexOf(s, pat) == -1 ==> r == s
    // the first occurrence, and only it, is swapped for `rep`; the text around it stays
    ensures IndexOf(s, pat) != -1 ==>
      var i := IndexOf(s, pat);
      && |r| == |s| - |pat| + |rep|
      && r[..i] == s[..i] && r[i..i + |rep|] == rep && r[i + |rep|..] == s[i + |pat|..]
  {
    var i := IndexOf(s, pat);
    if i == -1 then s else s[..i] + rep + s[i + |pat|..]
  }

  /** Deleting the first occurrence of a marker that ends the string, and occurs nowhere
      earlier, leaves exactly the text before it. */
  lemma RemoveTrailingMarker(t: string, marker: string)
    requires forall i: nat :: i < |t| ==> !OccursAt(t + marker, marker, i)
    ensures ReplaceFirst(t + marker, marker, "") == t
  {
    assert OccursAt(t + marker, marker, |t|);
    assert (t + marker)[..|t|] == t;
  }

  // ---------------------------------------------------------------------------
  // case

  /** Lower-cases the ASCII letters A-Z and leaves every other character alone. */
  function LowerChar(c: char): char {
    if 'A' <= c <= 'Z' then (c as int - 'A' as int + 'a' as int) as char else c
  }

  /** `toLocaleLowerCase` restricted to ASCII letters. */
  function Lower(s: string): (r: string)
    ensures |r| == |s|
    ensures forall i :: 0 <= i < |s| ==> r[i] == LowerChar(s[i])
  {
    seq(|s|, i requires 0 <= i < |s| => LowerChar(s[i]))
  }
}

=== FILE: version.dfy ===
/** The version bump of the extension publisher (scripts/o2/general-pack.ts, line 69).
    The components of the latest version are concatenated into one decimal numeral, that
    number is incremented, the result is left-padded with zeros to three digits, and a dot
    is put between every pair of digits. */
module Version {
  import opened Strs
  import opened Seqs

  predicate NotDot(c: char) { c != '.' }

  /** Every character is a digit or a dot: the components are all digit strings. */
  predicate DigitsAndDots(v: string) {
    forall i :: 0 <= i < |v| ==> IsDigit(v[i]) || v[i] == '.'
  }

  /** The components written one after another, with the dots dropped. */
  function JoinComponents(v: string): (r: string)
    requires DigitsAndDots(v)
    ensures AllDigits(r)
    ensures |r| <= |v|
  {
    var r := Filter(NotDot, v);
    assert forall i :: 0 <= i < |r| ==> r[i] in v && r[i] != '.';
    r
  }

  /** A version the bump reads correctly: all-digit components with at least one digit
      in all (otherwise `parseInt` yields NaN). */
  predicate Bumpable(v: string) {
    DigitsAndDots(v) && |JoinComponents(v)| > 0
  }

  /** The number the bump sees in a version: its concatenated components. */
  function ConcatValue(v: string): nat
    requires DigitsAndDots(v)
  {
    ParseDigits(JoinComponents(v))
  }

  /** A dot put between every pair of characters. */
  function Dotted(s: string): (r: string)
    // even positions hold the characters of `s` in order, odd positions hold dots
    ensures |s| >= 1 ==> |r| == 2 * |s| - 1
    ensures |s| == 0 ==> r == []
    ensures forall k :: 0 <= k < |r| ==> k / 2 < |s| && (if k % 2 == 0 then r[k] == s[k / 2] else r[k] == '.')
    decreases |s|
  {
    if |s| <= 1 then s
    else
      var rest := Dotted(s[1..]);
      var r := [s[0], '.'] + rest;
      forall k | 0 <= k < |r| ensures k / 2 < |s| && (if k % 2 == 0 then r[k] == s[k / 2] else r[k] == '.') {
        if k >= 2 {
          HalfShift(k);
          assert r[k] == rest[k - 2];
        }
      }
      r
  }

  lemma HalfShift(k: int)
    requires k >= 2
    ensures (k - 2) / 2 == k / 2 - 1 && (k - 2) % 2 == k % 2
  {
  }

  /** The shape of a version with single-digit components, such as `1.3.0`. */
  predicate SingleDigitComponents(r: string) {
    && |r| % 2 == 1
    && (forall i :: 0 <= i < |r| && i % 2 == 0 ==> IsDigit(r[i]))
    && (forall i :: 0 <= i < |r| && i % 2 == 1 ==> r[i] == '.')
  }

  /** Dotting a numeral yields one-digit components. */
  lemma DottedShape(s: string)
    requires |s| >= 1 && AllDigits(s)
    ensures |Dotted(s)| == 2 * |s| - 1
    ensures SingleDigitComponents(Dotted(s)) && DigitsAndDots(Dotted(s))
  {
    var r := Dotted(s);
    OddLength(|s|);
    DottedDigitsAt(s);
    assert forall i :: 0 <= i < |r| && i % 2 == 1 ==> r[i] == '.';
  }

  /** The characters of a dotted numeral are digits and dots. */
  lemma DottedDigitsAt(s: string)
    requires AllDigits(s)
    ensures forall i :: 0 <= i < |Dotted(s)| && i % 2 == 0 ==> IsDigit(Dotted(s)[i])
    ensures DigitsAndDots(Dotted(s))
  {
    var r := Dotted(s);
    forall i | 0 <= i < |r| ensures IsDigit(r[i]) || r[i] == '.' {
      if i % 2 == 0 {
        assert r[i] == s[i / 2];
      }
    }
  }

  lemma OddLength(n: int)
    requires n >= 1
    ensures (2 * n - 1) % 2 == 1
  {
  }

  /** Removing the dots from a dotted numeral gives the numeral back. */
  lemma {:induction false} DottedRoundTrip(s: string)
    requires |s| >= 1 && AllDigits(s)
    ensures DigitsAndDots(Dotted(s)) && JoinComponents(Dotted(s)) == s
    decreases |s|
  {
    DottedShape(s);
    if |s| > 1 {
      var rest := Dotted(s[1..]);
      DottedRoundTrip(s[1..]);
      DottedCons(s);
      DropDot(s[0], rest);
      assert s == [s[0]] + s[1..];
    } else {
      FilterAll(NotDot, s);
    }
  }

  lemma DottedCons(s: string)
    requires |s| > 1
    ensures Dotted(s) == [s[0]] + ['.'] + Dotted(s[1..])
  {
    var rest := Dotted(s[1..]);
    assert Dotted(s) == [s[0], '.'] + rest;
    assert [s[0], '.'] == [s[0]] + ['.'];
  }

  /** Removing the dots from a digit, a dot and more. */
  lemma DropDot(c: char, rest: string)
    requires c != '.'
    ensures Filter(NotDot, [c] + ['.'] + rest) == [c] + Filter(NotDot, rest)
  {
    FilterAppend(NotDot, [c] + ['.'], rest);
    FilterAppend(NotDot, [c], ['.']);
    FilterSingleton(NotDot, c);
    FilterSingleton(NotDot, '.');
  }

  /** The next version to publish after `latest`. */
  function NextVersion(latest: string): (r: string)
    requires Bumpable(latest)
    ensures DigitsAndDots(r) && SingleDigitComponents(r)
    // round trip: removing the dots and parsing gives the old concatenated value plus one
    ensures ConcatValue(r) == ConcatValue(latest) + 1
    // at least three components; more only when the incremented number needs them
    ensures |JoinComponents(r)| == if |DecimalString(ConcatValue(latest) + 1)| < 3 then 3
                                   else |DecimalString(ConcatValue(latest) + 1)|
  {
    var n := ParseDigits(JoinComponents(latest)) + 1;
    var padded := PadStart(DecimalString(n), 3, '0');
    ZeroPadKeepsValue(DecimalString(n), 3);
    DottedShape(padded);
    DottedRoundTrip(padded);
    Dotted(padded)
  }

  /** A bumped version can be bumped again. */
  lemma NextVersionBumpable(latest: string)
    requires Bumpable(latest)
    ensures Bumpable(NextVersion(latest))
  {
    assert |JoinComponents(NextVersion(latest))| >= 3;
  }

  /** Dotting three digits. */
  lemma DottedThree(a: char, b: char, c: char)
    ensures Dotted([a, b, c]) == [a, '.', b, '.', c]
  {
    var r := Dotted([a, b, c]);
    assert r[0] == a && r[1] == '.' && r[2] == b && r[3] == '.' && r[4] == c;
  }

  /** A three-component version with one digit per component reads as its three digits. */
  lemma ThreeComponents(a: char, b: char, c: char)
    requires IsDigit(a) && IsDigit(b) && IsDigit(c)
    ensures DigitsAndDots([a, '.', b, '.', c]) && Bumpable([a, '.', b, '.', c])
    ensures JoinComponents([a, '.', b, '.', c]) == [a, b, c]
    ensures ConcatValue([a, '.', b, '.', c]) == 100 * DigitValue(a) + 10 * DigitValue(b) + DigitValue(c)
  {
    DottedThree(a, b, c);
    DottedRoundTrip([a, b, c]);
    assert [a, b, c][..2] == [a, b];
    assert [a, b][..1] == [a];
    assert [a][..0] == [];
    assert ParseDigits([a]) == DigitValue(a);
    assert ParseDigits([a, b]) == 10 * DigitValue(a) + DigitValue(b);
  }

  /** A carry within three digits. */
  lemma NextVersionCarry()
    ensures NextVersion("1.2.9") == "1.3.0"
  {
    ThreeComponents('1', '2', '9');
    assert "1.2.9" == ['1', '.', '2', '.', '9'];
    assert DecimalString(1) == "1";
    assert DecimalString(13) == DecimalString(1) + ['3'];
    assert DecimalString(130) == DecimalString(13) + ['0'];
    DottedThree('1', '3', '0');
  }

  /** A result shorter than three digits is padded with leading zeros. */
  lemma NextVersionPads()
    ensures NextVersion("0.0.9") == "0.1.0"
  {
    ThreeComponents('0', '0', '9');
    assert "0.0.9" == ['0', '.', '0', '.', '9'];
    assert ConcatValue("0.0.9") == 9;
    assert DecimalString(1) == "1";
    assert DecimalString(10) == DecimalString(1) + ['0'];
    var padded := PadStart(DecimalString(10), 3, '0');
    assert padded == Repeat('0', 1) + "10";
    assert Repeat('0', 1) == ['0'];
    assert padded == ['0', '1', '0'];
    assert NextVersion("0.0.9") == Dotted(padded);
    DottedThree('0', '1', '0');
  }

  /** `String(1000)`. */
  lemma DecimalThousand()
    ensures DecimalString(1000) == "1000"
  {
    assert DecimalString(1) == "1";
    assert DecimalString(10) == DecimalString(1) + ['0'];
    assert DecimalString(100) == DecimalString(10) + ['0'];
    assert DecimalString(1000) == DecimalString(100) + ['0'];
  }

  /** Dotting `1000`. */
  lemma DottedThousand()
    ensures Dotted("1000") == "1.0.0.0"
  {
    var r := Dotted("1000");
    assert r[0] == '1' && r[1] == '.' && r[2] == '0' && r[3] == '.' && r[4] == '0' && r[5] == '.' && r[6] == '0';
  }

  /** Once three digits overflow, the version grows a fourth component. */
  lemma NextVersionOverflows()
    ensures NextVersion("9.9.9") == "1.0.0.0"
  {
    ThreeComponents('9', '9', '9');
    assert "9.9.9" == ['9', '.', '9', '.', '9'];
    assert ConcatValue("9.9.9") == 999;
    DecimalThousand();
    assert PadStart("1000", 3, '0') == "1000";
    assert NextVersion("9.9.9") == Dotted("1000");
    DottedThousand();
  }

}

=== FILE: wrappers.dfy ===
/** Optional values and outcomes, shared by the pack, scaffold and doc-cache models. */
module Wrappers {

  /** A value that may be absent: JavaScript's `undefined`, a failed lookup. */
  datatype Option<+T> = None | Some(value: T) {

    /** The carried value, or `default` when absent (JavaScript's `x || default`). */
    function GetOr(default: T): T {
      match this
      case Some(v) => v
      case None => default
    }
  }

  /** The outcome of a step that can reject, as a promise can. */
  datatype Result<+R> = Success(value: R) | Failure(error: string)
}
